=== FILE: README.md ===
# Interview-slot booking: a Dafny model of the service layer

The backend of the interview-slot booking system keeps three PostgreSQL tables:
- `slots`: an interviewer's time window with a `capacity` and a running `booked_count`.
- `bookings`: a candidate's seat on a slot, `confirmed` or `cancelled`, with an optional idempotency key.
- `waitlist`: a candidate queued for a slot, stamped with `created_at`.

Three service modules change these tables, one SQL transaction per call:
- `booking.service.js`: create a booking, cancel a booking with FIFO promotion, list a candidate's bookings.
- `waitlist.service.js`: join, list by slot, list by candidate, promote the head of the queue.
- `slot.service.js`: create a slot, list all slots, delete a slot with its cascade.

The model treats each transaction as one atomic step on an immutable `Schema.Store`. The store holds the three tables as sequences in table order. Every service call is a pure function that returns either `Ok` with the new store and the call's result, or `Err` with the error the service throws. `Err` carries no store: the `ROLLBACK` leaves the old one in place. `uuidv4()` becomes the counter `nextId`, and `NOW()` on waitlist rows becomes the logical tick `clock`. Each insertion draws a fresh id, and each join draws a later tick, so creation order and insertion order agree.

The SQL clauses are modelled as generic sequence functions:
- `WHERE` is `SeqUtil.Filter`.
- Taking `rows[0]` of an unordered `SELECT`, and testing `rows.length > 0`, is `SeqUtil.IndexOf`: the first matching row in table order.
- `COUNT` is `SeqUtil.Count`.
- `ORDER BY … ASC` is the stable insertion sort `SeqUtil.SortBy`, and `ORDER BY created_at ASC LIMIT 1` is the head of that sort (`WaitlistService.Oldest`).

Two slot-table primitives are shared by the services:
- The slot lookup by id is `Schema.FindSlot`, the index of the first slot with that id. Create booking and cancel start with `SELECT * FROM slots WHERE id = $1`, and join starts with `SELECT capacity, booked_count FROM slots WHERE id = $1`. The promotion never looks the slot up: it starts from the waitlist and never checks that the slot exists.
- `UPDATE slots SET booked_count = booked_count ± 1 WHERE id = $1` is `Schema.AdjustBooked`. Create booking and the promotion add 1; cancel subtracts 1.

`Schema.Valid` is the conjunction of the invariants the services are meant to keep:
- slot ids are unique;
- no two slots of one interviewer overlap as half-open intervals;
- every slot has `start < end`;
- `0 <= booked_count <= capacity`;
- `booked_count` is never below the slot's number of confirmed bookings;
- there is at most one waitlist entry per (slot, candidate);
- waitlist ids are unique;
- booking ids are unique;
- waitlist table order is creation order;
- a present idempotency key is carried by one booking only (create stores a key only when no booking carries it, since a key in use is a replay, and the promotion stores none);
- no booking or entry refers to a missing slot;
- the counters are ahead of every id and tick in use.

Files:
- `sequtil.dfy`: the generic sequence functions.
- `schema.dfy`: the tables, errors, invariants and shared lemmas.
- `slots.dfy`, `waitlist.dfy` and `bookings.dfy`: one module per service file.
- `drift.dfy`: the example history in which booked_count and the confirmed count drift apart.
- `doublebook.dfy`: the example history in which a candidate is promoted into a second booking on a slot.

### Behaviour of the code that the model keeps as written

- **Duplicate bookings.** `createBookingService` never checks whether the candidate already holds a booking on the slot. Without an idempotency key, two calls give two confirmed bookings.
- **Cancel updates every match but frees one seat.** The cancel `UPDATE` sets every confirmed booking of the (slot, candidate) pair to cancelled, but `booked_count` goes down by one only. Together with duplicate bookings, this means "`booked_count` equals the number of confirmed bookings" is not an invariant.
  - `CountDrift.ConfirmedCountCanDrift` exhibits a three-call history that ends with `booked_count = 1` and no confirmed booking.
  - `BookingService.CancelKeepsExactCounts` proves the equality is kept when the candidate held at most one confirmed booking on the slot.
  - The weaker inequality, `booked_count >= confirmed count`, is part of `Valid` and holds throughout. It is what keeps a cancel from driving `booked_count` below zero.
- **Promotion has no capacity check.** `promoteFromWaitlistService` does not check capacity.
  - `WaitlistService.PromotePreservesValid` needs a free seat as a precondition.
  - `WaitlistService.PromoteCanOverfill` shows a full slot going to `booked_count = capacity + 1`.
  - Inside a cancel the seat was just freed, so `BookingService.CancelPreservesValid` needs no extra assumption.
- **Joining ignores free seats.** Joining a waitlist never looks at free seats, so a candidate can queue for a slot that has seats left (`WaitlistService.JoinAcceptsIff`).
- **Create never looks at the waitlist, so promotion can double-book.** Nothing in the code keeps a candidate from being both booked and queued for one slot, or from holding two confirmed bookings on it through the queue.
  - Join refuses a candidate who already holds a booking, but `createBookingService` does not refuse a candidate who is queued. So a candidate can join a slot with free seats and then book it.
  - A later cancel by another candidate promotes the queued entry into a second confirmed booking for the same candidate.
  - `DoubleBooking.WaitlistCanDoubleBook` exhibits this history: join, book, another candidate books the last seat and cancels. Every store on the way satisfies `Valid`, and it ends with two confirmed bookings of one candidate on the slot.
  - A candidate who is booked and at the head of the queue cannot give the seat up. Their cancel flips the booking, then promotes them straight back into a new confirmed booking (`DoubleBooking.CancelWhileQueuedRebooks`).
- **Empty idempotency key.** An empty key is falsy in JavaScript. It is neither looked up nor stored, so it behaves exactly like no key (`BookingService.EffectiveKey`).
- **One promotion, defined once.** The promotion inline in `cancelBookingService` performs the same select, insert, delete and increment as `promoteFromWaitlistService`. The model defines it once as `WaitlistService.Promote` and cancels with `BookingService.CancelStep` followed by `Promote`.

## Model

| member | source | states |
|---|---|---|
| SlotService.CreateSlot | backend/services/slot.service.js:4-68 | start >= end fails with "Invalid time range"; any failure is that or "Schedule conflict"; success appends one slot with the given fields and booked_count 0, leaves bookings and waitlist alone, and draws an id no existing slot has |
| SlotService.CreateSlotAcceptsIff | backend/services/slot.service.js:11-35 | create succeeds iff start < end and the new range is disjoint, as a half-open interval, from every slot of the same interviewer; it fails with "Schedule conflict" iff the range is proper and such a slot overlaps it |
| SlotService.AdjacentSlotAccepted | backend/services/slot.service.js:23-35 | with [600, 660) taken, the adjacent [660, 720) is accepted, the overlapping [630, 690) is a schedule conflict, and the same range for another interviewer is accepted |
| SlotService.CreateSlotPreservesValid | backend/services/slot.service.js:40-57 | a successful create keeps every invariant, in particular that no two slots of one interviewer overlap |
| SlotService.GetAllSlots | backend/services/slot.service.js:70-92 | one row per slot, sorted by start time; each row carries available = capacity - booked_count and waitlist_count = the number of waitlist entries of that slot, and every such row appears |
| SlotService.ListedSeatsNonNegative | backend/services/slot.service.js:81 | under the invariants every listed slot shows between 0 and capacity available seats |
| SlotService.DeleteSlot | backend/services/slot.service.js:94-140 | delete fails, with "Unauthorized" only, iff no slot with that id belongs to the caller; on success exactly the slot's row, its bookings and its waitlist entries are gone and every other row stays |
| SlotService.DeleteSlotLeavesNoTrace | backend/services/slot.service.js:117-130 | after a delete no slot has the id and no booking or waitlist entry refers to it |
| SlotService.DeleteSlotPreservesValid | backend/services/slot.service.js:117-130 | a delete keeps every invariant, including that nothing refers to a missing slot |
| WaitlistService.JoinWaitlist | backend/services/waitlist.service.js:4-88 | a missing slot gives "Slot not found"; any booking of the pair, whatever its status, gives "Already booked"; "Already in waitlist" exactly when the slot exists, the pair has no booking and is already queued; success appends one entry for the pair with a fresh id and a tick later than every entry's, changing no slot or booking |
| WaitlistService.JoinAcceptsIff | backend/services/waitlist.service.js:13-58 | join succeeds iff the slot exists, the pair holds no booking of any status and is not queued; seats play no part |
| WaitlistService.JoinPreservesValid | backend/services/waitlist.service.js:46-76 | a successful join keeps every invariant, in particular at most one entry per (slot, candidate) and creation order |
| WaitlistService.GetWaitlistBySlot | backend/services/waitlist.service.js:90-115 | the listing is sorted by created_at, is a permutation of the slot's entries, and holds exactly the entries of that slot |
| WaitlistService.WaitlistBySlotIsInsertionOrder | backend/services/waitlist.service.js:107-109 | when table order is creation order, the slot's queue is its entries in table order |
| WaitlistService.Oldest | backend/services/waitlist.service.js:122-134 | none iff the slot has no entry; otherwise an entry of the slot whose created_at is no later than any other entry of the slot |
| WaitlistService.OldestIsFirstInserted | backend/services/waitlist.service.js:122-132 | under creation order the entry taken is the slot's first entry in table order |
| WaitlistService.Promote | backend/services/waitlist.service.js:118-179 | an empty queue changes nothing; otherwise one confirmed booking for the oldest entry's candidate, with no idempotency key and, when the id counter is ahead of every id, an id no existing booking has, is appended, the slot's booked_count rises by 1 and no other slot changes, and exactly the entries with the head's id leave the waitlist |
| WaitlistService.PromoteRemovesOnlyHead | backend/services/waitlist.service.js:157-166 | with unique entry ids, the waitlist after promotion is the old one with the head cut out and the rest in their order |
| WaitlistService.PromotePreservesValid | backend/services/waitlist.service.js:136-178 | promotion keeps every invariant provided the slot had a free seat |
| WaitlistService.PromoteCanOverfill | backend/services/waitlist.service.js:168-178 | a valid store with a full slot and one waiting candidate ends with booked_count 2 over capacity 1 after promotion |
| WaitlistService.GetMyWaitlist | backend/services/waitlist.service.js:181-207 | sorted by slot start time; one row per entry of the candidate whose slot exists, joined with that slot's role, times and interviewer, and no other row |
| BookingService.CreateBooking | backend/services/booking.service.js:4-74 | the call succeeds iff it is a replay or the slot exists with booked_count < capacity; a non-empty key already in use returns that booking with the store unchanged; otherwise a missing slot gives "Slot not found" and booked_count >= capacity gives "Slot is full"; success appends one confirmed booking with the given slot, candidate and key and a fresh id, raises that slot's booked_count by 1 and changes nothing else |
| BookingService.EffectiveKey | backend/services/booking.service.js:15-52 | the key is used, both for the lookup and for the stored column, iff it is present and non-empty, and then it is the caller's key unchanged; an empty key behaves as no key |
| BookingService.ReplayIsIdempotent | backend/services/booking.service.js:14-25 | repeating a successful call with the same key, whatever slot and candidate, returns the same booking and the same store |
| BookingService.ReplayReturnsKeyed | backend/services/booking.service.js:15-24 | when keys are unique and a booking carries the caller's non-empty key, the call returns that booking and leaves the store unchanged, whatever calls came before it and whatever slot and candidate it names |
| BookingService.CreateBookingPreservesValid | backend/services/booking.service.js:14-63 | a successful create keeps every invariant, in particular booked_count <= capacity and one booking per idempotency key |
| BookingService.CancelPair | backend/services/booking.service.js:93-101 | same length as the bookings table; each row that is a confirmed booking of the pair becomes cancelled and every other row is unchanged |
| BookingService.CancelStep | backend/services/booking.service.js:92-115 | the pair's confirmed bookings become cancelled and no other booking changes, no confirmed booking of the pair remains, the slot's booked_count drops by exactly 1 and no other slot changes, the waitlist and counters are untouched |
| BookingService.CancelPairCount | backend/services/booking.service.js:92-101 | the cancel update lowers the slot's confirmed count by the pair's number of confirmed bookings, and no other slot's count |
| BookingService.CancelBooking | backend/services/booking.service.js:76-175 | a missing slot gives "Slot not found"; no confirmed booking of the pair gives "Confirmed booking not found"; on success the returned row is a confirmed booking of the pair, now cancelled |
| BookingService.CancelAcceptsIff | backend/services/booking.service.js:82-105 | cancel succeeds iff the slot exists and the pair holds a confirmed booking on it; it fails only with the two lookup errors |
| BookingService.CancelWithEmptyWaitlist | backend/services/booking.service.js:92-129 | when the slot exists, the pair holds a confirmed booking and nobody waits, the cancel succeeds, nothing is promoted, the slot's booked_count falls by exactly 1, the waitlist is unchanged, every confirmed booking of the pair and nothing else becomes cancelled |
| BookingService.CancelWithWaitlist | backend/services/booking.service.js:92-161 | when the slot exists, the pair holds a confirmed booking and somebody waits, the cancel succeeds, the oldest entry's candidate gets a confirmed booking on the slot with no idempotency key and, when the id counter is ahead of every id, an id no existing booking has, the bookings table becomes the old one with the pair's confirmed bookings cancelled plus that new booking appended, booked_count ends where it started, and the waitlist loses that entry only, the rest in order |
| BookingService.CancelPreservesValid | backend/services/booking.service.js:76-175 | a successful cancel, promotion included, keeps every invariant |
| BookingService.CreateBookingKeepsExactCounts | backend/services/booking.service.js:44-63 | when booked_count equals each slot's confirmed count, a create keeps it so |
| BookingService.PromoteKeepsExactCounts | backend/services/waitlist.service.js:139-178 | promotion keeps booked_count equal to each slot's confirmed count |
| BookingService.CancelKeepsExactCounts | backend/services/booking.service.js:92-115 | if the pair held at most one confirmed booking, a cancel keeps booked_count equal to each slot's confirmed count |
| CountDrift.ConfirmedCountCanDrift | backend/services/booking.service.js:27-115 | two creates by one candidate and one cancel take a valid store with exact counts through valid stores only to a valid store whose slot has booked_count 1 but no confirmed booking |
| DoubleBooking.WaitlistCanDoubleBook | backend/services/booking.service.js:27-161 | every store on the way is valid; from an open slot, a join by candidate 7 and a create by candidate 7 both succeed and leave a valid store in which 7 is both queued and booked; a create and a cancel by candidate 8 then promote 7, leaving a valid store in which 7 holds two confirmed bookings on the slot |
| DoubleBooking.CancelWhileQueuedRebooks | backend/services/booking.service.js:92-161 | when the slot exists and the candidate holds a confirmed booking on it and owns the slot's oldest waitlist entry, the cancel succeeds and promotes that same candidate: the table ends with a new confirmed booking of the pair and every slot as it was |
| BookingService.GetBookingsByCandidate | backend/services/booking.service.js:177-197 | sorted by slot start time; one row per booking of the candidate, any status, whose slot exists, joined with the slot's times and role, and no other row |

## Left out

- The connection pool, `BEGIN`/`COMMIT`/`ROLLBACK` and `FOR UPDATE` row locks: each call is one atomic step, and interleavings of concurrent requests are not modelled.
- `uuidv4()` and `NOW()`: modelled as the counters `nextId` and `clock`. Booking and slot `created_at` columns are not modelled because nothing reads them.
- Ties in `ORDER BY`: SQL leaves their order open, and the model breaks them by table order (a stable sort).
- Timestamps are integers: parsing of `startTime`/`endTime` strings, including invalid dates, is not modelled.
- The `users` join in `getWaitlistBySlotService`: rows carry the candidate id only, not email or name, and a missing user row does not drop an entry.
- `promoteFromWaitlistService` returns nothing; `WaitlistService.Promote` also returns the inserted booking because the cancel path returns it as `promoted`.
- `rescheduleSlotService` and `leaveWaitlistService` are imported by the controllers but their code is not part of this model.
- Controllers, routes and the role middleware only map HTTP requests and errors. Two mismatches there are not modelled:
  - the booking controller matches `"ALREADY_BOOKED"` and `"SLOT_FULL"`, which the service never throws;
  - the cancel route passes a bare booking id to a service that expects a slot and a candidate.
- Authentication (password hashing, tokens) and the whole frontend.
- SlotService.CreateSlotPreservesValid: assumes `capacity >= 0`, because the service stores whatever capacity it is given; a negative capacity would break `0 <= booked_count <= capacity`.
- WaitlistService.PromotePreservesValid: assumes the slot has a free seat, because the service does not check it (see `WaitlistService.PromoteCanOverfill`).
- BookingService.CancelKeepsExactCounts: assumes the pair holds at most one confirmed booking, because the equality is false otherwise (see `CountDrift.ConfirmedCountCanDrift`).
- WaitlistService.GetMyWaitlist and BookingService.GetBookingsByCandidate: join each row with the first slot of its id; the invariants make slot ids unique, so that slot is the only one.

=== FILE: bookings.dfy ===
/**
  The booking service: creating a booking (idempotent replay, capacity
  check), cancelling a candidate's booking with FIFO promotion from the
  slot's waitlist, and listing a candidate's bookings.
 */
module BookingService {
  import opened SeqUtil
  import opened Schema
  import opened WaitlistService

  /**
    The key as the service uses it: an empty key is falsy, so it is neither
    looked up nor stored (`idempotencyKey || null`).
   */
  function EffectiveKey(key: Option<string>): (r: Option<string>)
    ensures r.Some? <==> key.Some? && key.value != ""
    ensures r.Some? ==> r == key
  {
    if key.Some? && key.value != "" then key else None
  }

  /** A booking already carries the caller's key, so the request is a replay. */
  predicate IsReplay(st: Store, key: Option<string>)
  {
    EffectiveKey(key).Some? && exists b :: b in st.bookings && b.key == EffectiveKey(key)
  }

  /** `createBookingService`. */
  function CreateBooking(st: Store, slotId: Id, candidate: Id, key: Option<string>): (r: Result<(Store, Booking)>)
    ensures IsReplay(st, key) ==>
      r.Ok? && r.value.0 == st && r.value.1 in st.bookings && r.value.1.key == EffectiveKey(key)
    ensures r.Ok? <==>
      IsReplay(st, key) || (HasSlot(st, slotId) && SlotOf(st, slotId).booked < SlotOf(st, slotId).capacity)
    ensures !IsReplay(st, key) && !HasSlot(st, slotId) ==> r == Err(SlotNotFound)
    ensures !IsReplay(st, key) && HasSlot(st, slotId) && SlotOf(st, slotId).booked >= SlotOf(st, slotId).capacity
      ==> r == Err(SlotFull)
    ensures r.Ok? && !IsReplay(st, key) ==>
      && HasSlot(st, slotId) && SlotOf(st, slotId).booked < SlotOf(st, slotId).capacity
      && r.value.1.slot == slotId && r.value.1.candidate == candidate
      && r.value.1.status == Confirmed && r.value.1.key == EffectiveKey(key)
      && r.value.0.bookings == st.bookings + [r.value.1]
      && r.value.0.waitlist == st.waitlist
      && SeatsShifted(st.slots, r.value.0.slots, slotId, 1)
      && (FreshCounters(st) ==> forall b :: b in st.bookings ==> b.id != r.value.1.id)
  {
    var k := EffectiveKey(key);
    var prior := if k.Some? then IndexOf(st.bookings, WithKey(k.value)) else None;
    if prior.Some? then
      Ok((st, st.bookings[prior.value]))
    else
      assert !IsReplay(st, key) by {
        if k.Some? {
          assert forall j :: 0 <= j < |st.bookings| ==> !WithKey(k.value)(st.bookings[j]);
        }
      }
      match FindSlot(st, slotId)
      case None => Err(SlotNotFound)
      case Some(i) =>
        if st.slots[i].booked >= st.slots[i].capacity then Err(SlotFull)
        else
          var b := Booking(st.nextId, slotId, candidate, Confirmed, k);
          Ok((st.(slots := AdjustBooked(st.slots, slotId, 1),
                  bookings := st.bookings + [b],
                  nextId := st.nextId + 1),
              b))
  }

  /**
    Retrying with the same key returns the booking of the first call and
    changes nothing, whatever slot and candidate the retry names.
   */
  lemma ReplayIsIdempotent(st: Store, slotId: Id, candidate: Id, key: Option<string>, slotId': Id, candidate': Id)
    requires EffectiveKey(key).Some?
    requires CreateBooking(st, slotId, candidate, key).Ok?
    ensures var first := CreateBooking(st, slotId, candidate, key).value;
      CreateBooking(first.0, slotId', candidate', key) == Ok(first)
  {
    var k := EffectiveKey(key).value;
    var first := CreateBooking(st, slotId, candidate, key).value;
    if !IsReplay(st, key) {
      var bs := first.0.bookings;
      assert bs == st.bookings + [first.1];
      assert forall j :: 0 <= j < |st.bookings| ==> !WithKey(k)(bs[j]) by {
        forall j | 0 <= j < |st.bookings| ensures !WithKey(k)(bs[j]) {
          assert bs[j] == st.bookings[j] && st.bookings[j] in st.bookings;
        }
      }
      assert WithKey(k)(bs[|st.bookings|]);
      assert IndexOf(bs, WithKey(k)) == Some(|st.bookings|);
    }
  }

  /**
    Under the invariant a replay returns the one booking that carries the
    key, however many other calls came between the first call and the retry.
   */
  lemma ReplayReturnsKeyed(st: Store, b: Booking, slotId: Id, candidate: Id, key: Option<string>)
    requires UniqueKeys(st)
    requires b in st.bookings && EffectiveKey(key).Some? && b.key == EffectiveKey(key)
    ensures CreateBooking(st, slotId, candidate, key) == Ok((st, b))
  {
    var k := EffectiveKey(key).value;
    var j :| 0 <= j < |st.bookings| && st.bookings[j] == b;
    assert WithKey(k)(st.bookings[j]);
    var i := IndexOf(st.bookings, WithKey(k)).value;
    assert i == j by {
      assert !(i < j && DistinctKeys(st.bookings[i], st.bookings[j]));
    }
  }

  lemma CreateBookingPreservesValid(st: Store, slotId: Id, candidate: Id, key: Option<string>)
    requires Valid(st)
    ensures CreateBooking(st, slotId, candidate, key).Ok? ==> Valid(CreateBooking(st, slotId, candidate, key).value.0)
  {
    var r := CreateBooking(st, slotId, candidate, key);
    if r.Ok? && !IsReplay(st, key) {
      var st', b := r.value.0, r.value.1;
      assert UniqueSlotIds(st') && NoOverlap(st') && ProperRanges(st') by {
        ShiftKeepsShape(st, st', slotId, 1);
      }
      assert SeatsWithinCapacity(st') by {
        forall j | 0 <= j < |st.slots| ensures 0 <= st'.slots[j].booked <= st'.slots[j].capacity {
          if st.slots[j].id == slotId {
            SlotOfUnique(st, slotId, j);
          }
        }
      }
      AppendBookingKeepsCover(st, st', b);
      AppendBookingKeepsRefs(st, st', b);
      assert UniqueBookingIds(st') && UniqueKeys(st') by {
        AppendBookingKeepsKeys(st.bookings, b);
      }
      assert OneEntryPerPair(st') && UniqueEntryIds(st') && FifoOrder(st');
    }
  }

  /** The cancel `UPDATE`: every confirmed booking of the pair becomes cancelled. */
  function CancelPair(bs: seq<Booking>, slotId: Id, candidate: Id): (r: seq<Booking>)
    ensures |r| == |bs|
    ensures forall i :: 0 <= i < |bs| ==>
      r[i] == if ActiveFor(slotId, candidate)(bs[i]) then bs[i].(status := Cancelled) else bs[i]
  {
    if |bs| == 0 then []
    else
      var b := if ActiveFor(slotId, candidate)(bs[0]) then bs[0].(status := Cancelled) else bs[0];
      [b] + CancelPair(bs[1..], slotId, candidate)
  }

  /** The update takes away exactly the pair's confirmed bookings from the slot's confirmed count. */
  lemma {:induction false} CancelPairCount(bs: seq<Booking>, slotId: Id, candidate: Id, t: Id)
    ensures Count(CancelPair(bs, slotId, candidate), ConfirmedAt(t)) ==
      Count(bs, ConfirmedAt(t)) - (if t == slotId then Count(bs, ActiveFor(slotId, candidate)) else 0)
  {
    if |bs| > 0 {
      var r := CancelPair(bs, slotId, candidate);
      assert r[1..] == CancelPair(bs[1..], slotId, candidate);
      CancelPairCount(bs[1..], slotId, candidate, t);
    }
  }

  /** The cancel step before promotion: the pair's bookings cancelled and one seat given back. */
  function CancelStep(st: Store, slotId: Id, candidate: Id): (r: Store)
    ensures SeatsShifted(st.slots, r.slots, slotId, -1)
    ensures |r.bookings| == |st.bookings|
    ensures forall i :: 0 <= i < |st.bookings| ==>
      r.bookings[i] == if ActiveFor(slotId, candidate)(st.bookings[i]) then st.bookings[i].(status := Cancelled) else st.bookings[i]
    ensures forall b :: b in r.bookings ==> !ActiveFor(slotId, candidate)(b)
    ensures r.waitlist == st.waitlist && r.nextId == st.nextId && r.clock == st.clock
  {
    st.(slots := AdjustBooked(st.slots, slotId, -1), bookings := CancelPair(st.bookings, slotId, candidate))
  }

  /** The result of a cancel: the cancelled row and the booking promoted in its place, if any. */
  datatype Cancellation = Cancellation(cancelled: Booking, promoted: Option<Booking>)

  /**
    `cancelBookingService`: cancel the pair's confirmed booking(s), give back
    one seat, then promote the oldest waitlist entry of the slot.
   */
  function CancelBooking(st: Store, slotId: Id, candidate: Id): (r: Result<(Store, Cancellation)>)
    ensures !HasSlot(st, slotId) ==> r == Err(SlotNotFound)
    ensures HasSlot(st, slotId) && (forall b :: b in st.bookings ==> !ActiveFor(slotId, candidate)(b))
      ==> r == Err(BookingNotFound)
    ensures r.Ok? ==>
      var c := r.value.1.cancelled;
      && c.slot == slotId && c.candidate == candidate && c.status == Cancelled
      && c.(status := Confirmed) in st.bookings
    ensures r.Ok? ==> r.value.0.clock == st.clock
  {
    if FindSlot(st, slotId).None? then Err(SlotNotFound)
    else match IndexOf(st.bookings, ActiveFor(slotId, candidate))
      case None => Err(BookingNotFound)
      case Some(i) =>
        var cancelled := st.bookings[i].(status := Cancelled);
        assert cancelled.(status := Confirmed) == st.bookings[i];
        var p := Promote(CancelStep(st, slotId, candidate), slotId);
        Ok((p.0, Cancellation(cancelled, p.1)))
  }

  /**
    A cancel goes through exactly when the slot exists and the candidate
    holds a confirmed booking on it; otherwise it fails with one of the two
    lookup errors.
   */
  lemma CancelAcceptsIff(st: Store, slotId: Id, candidate: Id)
    ensures CancelBooking(st, slotId, candidate).Ok? <==>
      HasSlot(st, slotId) && exists b :: b in st.bookings && ActiveFor(slotId, candidate)(b)
    ensures CancelBooking(st, slotId, candidate).Err? ==>
      CancelBooking(st, slotId, candidate).error in {SlotNotFound, BookingNotFound}
  {
    if CancelBooking(st, slotId, candidate).Ok? {
      var i := IndexOf(st.bookings, ActiveFor(slotId, candidate)).value;
      assert st.bookings[i] in st.bookings;
    }
  }

  lemma CancelIsStepThenPromote(st: Store, slotId: Id, candidate: Id)
    ensures CancelBooking(st, slotId, candidate).Ok? ==>
      && CancelBooking(st, slotId, candidate).value.0 == Promote(CancelStep(st, slotId, candidate), slotId).0
      && CancelBooking(st, slotId, candidate).value.1.promoted == Promote(CancelStep(st, slotId, candidate), slotId).1
  {
  }

  /** Promotion only reads the waitlist, which the cancel step leaves alone. */
  lemma OldestAfterStep(st: Store, slotId: Id, candidate: Id)
    ensures Oldest(CancelStep(st, slotId, candidate), slotId) == Oldest(st, slotId)
  {
    assert CancelStep(st, slotId, candidate).waitlist == st.waitlist;
    assert GetWaitlistBySlot(CancelStep(st, slotId, candidate), slotId) == GetWaitlistBySlot(st, slotId);
  }

  /**
    With nobody waiting, a cancel marks the pair's confirmed bookings
    cancelled, lowers booked_count by one and promotes nobody.
   */
  lemma CancelWithEmptyWaitlist(st: Store, slotId: Id, candidate: Id)
    requires forall e :: e in st.waitlist ==> e.slot != slotId
    requires HasSlot(st, slotId)
    requires exists b :: b in st.bookings && ActiveFor(slotId, candidate)(b)
    ensures CancelBooking(st, slotId, candidate).Ok?
    ensures var (st', res) := CancelBooking(st, slotId, candidate).value;
      && res.promoted.None?
      && SeatsShifted(st.slots, st'.slots, slotId, -1)
      && st'.waitlist == st.waitlist
      && |st'.bookings| == |st.bookings|
      && (forall i :: 0 <= i < |st.bookings| ==>
            st'.bookings[i] == if ActiveFor(slotId, candidate)(st.bookings[i])
                               then st.bookings[i].(status := Cancelled) else st.bookings[i])
      && (forall b :: b in st'.bookings ==> !ActiveFor(slotId, candidate)(b))
  {
    CancelAcceptsIff(st, slotId, candidate);
    OldestAfterStep(st, slotId, candidate);
    CancelIsStepThenPromote(st, slotId, candidate);
  }

  /**
    With someone waiting, a cancel hands the freed seat to the oldest entry:
    that entry leaves the queue (the rest keep their order), its candidate
    gets a new confirmed booking, and booked_count ends where it started.
   */
  lemma CancelWithWaitlist(st: Store, slotId: Id, candidate: Id)
    requires UniqueEntryIds(st)
    requires exists e :: e in st.waitlist && e.slot == slotId
    requires HasSlot(st, slotId)
    requires exists b :: b in st.bookings && ActiveFor(slotId, candidate)(b)
    ensures CancelBooking(st, slotId, candidate).Ok?
    ensures Oldest(st, slotId).Some?
    ensures var (st', res) := CancelBooking(st, slotId, candidate).value;
      var head := Oldest(st, slotId).value;
      && res.promoted.Some?
      && res.promoted.value.candidate == head.candidate
      && res.promoted.value.slot == slotId
      && res.promoted.value.status == Confirmed
      && res.promoted.value.key.None?
      && (FreshCounters(st) ==> forall b :: b in st.bookings ==> b.id != res.promoted.value.id)
      && st'.slots == st.slots
      && st'.bookings == CancelPair(st.bookings, slotId, candidate) + [res.promoted.value]
      && (forall e :: e in st.waitlist && e.slot == slotId ==> head.created <= e.created)
      && exists k :: (0 <= k < |st.waitlist| && st.waitlist[k] == head
           && st'.waitlist == st.waitlist[..k] + st.waitlist[k + 1..])
  {
    CancelAcceptsIff(st, slotId, candidate);
    CancelIsStepThenPromote(st, slotId, candidate);
    StepThenPromote(st, slotId, candidate);
  }

  /** `CancelWithWaitlist` stated on the cancel step followed by the promotion. */
  lemma StepThenPromote(st: Store, slotId: Id, candidate: Id)
    requires UniqueEntryIds(st)
    requires exists e :: e in st.waitlist && e.slot == slotId
    ensures Oldest(st, slotId).Some?
    ensures var (st', promoted) := Promote(CancelStep(st, slotId, candidate), slotId);
      var head := Oldest(st, slotId).value;
      && promoted.Some?
      && promoted.value.candidate == head.candidate
      && promoted.value.slot == slotId
      && promoted.value.status == Confirmed
      && promoted.value.key.None?
      && (FreshCounters(st) ==> forall b :: b in st.bookings ==> b.id != promoted.value.id)
      && st'.slots == st.slots
      && st'.bookings == CancelPair(st.bookings, slotId, candidate) + [promoted.value]
      && (forall e :: e in st.waitlist && e.slot == slotId ==> head.created <= e.created)
      && exists k :: (0 <= k < |st.waitlist| && st.waitlist[k] == head
           && st'.waitlist == st.waitlist[..k] + st.waitlist[k + 1..])
  {
    var st1 := CancelStep(st, slotId, candidate);
    OldestAfterStep(st, slotId, candidate);
    var st' := Promote(st1, slotId).0;
    if FreshCounters(st) {
      PromotedAfterStepIsFresh(st, slotId, candidate);
    }
    assert st'.slots == st.slots by {
      assert SeatsShifted(st1.slots, st'.slots, slotId, 1);
      assert SeatsShifted(st.slots, st1.slots, slotId, -1);
      forall i | 0 <= i < |st.slots| ensures st'.slots[i] == st.slots[i] {
        assert st1.slots[i].id == st.slots[i].id;
      }
    }
    PromoteRemovesOnlyHead(st1, slotId);
  }

  /** The booking promoted after the cancel step draws an id no booking had before the cancel. */
  lemma PromotedAfterStepIsFresh(st: Store, slotId: Id, candidate: Id)
    requires FreshCounters(st)
    requires Oldest(st, slotId).Some?
    ensures Promote(CancelStep(st, slotId, candidate), slotId).1.Some?
    ensures forall b :: b in st.bookings ==> b.id != Promote(CancelStep(st, slotId, candidate), slotId).1.value.id
  {
    var st1 := CancelStep(st, slotId, candidate);
    OldestAfterStep(st, slotId, candidate);
    assert Promote(st1, slotId).1.value.id == st1.nextId == st.nextId;
  }

  /** The seat count of the slot stays within [0, capacity) and above its confirmed count. */
  lemma CancelStepSeats(st: Store, slotId: Id, candidate: Id)
    requires SeatsWithinCapacity(st) && SeatsCoverConfirmed(st)
    requires exists b :: b in st.bookings && ActiveFor(slotId, candidate)(b)
    ensures SeatsWithinCapacity(CancelStep(st, slotId, candidate))
    ensures SeatsCoverConfirmed(CancelStep(st, slotId, candidate))
    ensures HasRoom(CancelStep(st, slotId, candidate), slotId)
  {
    var st1 := CancelStep(st, slotId, candidate);
    var active := Count(st.bookings, ActiveFor(slotId, candidate));
    assert 1 <= active <= Count(st.bookings, ConfirmedAt(slotId)) by {
      var b :| b in st.bookings && ActiveFor(slotId, candidate)(b);
      CountPositive(st.bookings, ActiveFor(slotId, candidate), b);
      CountImplies(st.bookings, ActiveFor(slotId, candidate), ConfirmedAt(slotId));
    }
    forall j | 0 <= j < |st1.slots|
      ensures 0 <= st1.slots[j].booked <= st1.slots[j].capacity
      ensures Count(st1.bookings, ConfirmedAt(st1.slots[j].id)) <= st1.slots[j].booked
    {
      CancelStepSlotSeats(st, slotId, candidate, j);
    }
  }

  /** One slot's share of `CancelStepSeats`. */
  lemma CancelStepSlotSeats(st: Store, slotId: Id, candidate: Id, j: nat)
    requires j < |st.slots|
    requires 0 <= st.slots[j].booked <= st.slots[j].capacity
    requires Count(st.bookings, ConfirmedAt(st.slots[j].id)) <= st.slots[j].booked
    requires 1 <= Count(st.bookings, ActiveFor(slotId, candidate)) <= Count(st.bookings, ConfirmedAt(slotId))
    ensures 0 <= CancelStep(st, slotId, candidate).slots[j].booked <= CancelStep(st, slotId, candidate).slots[j].capacity
    ensures Count(CancelStep(st, slotId, candidate).bookings, ConfirmedAt(st.slots[j].id))
      <= CancelStep(st, slotId, candidate).slots[j].booked
  {
    CancelPairCount(st.bookings, slotId, candidate, st.slots[j].id);
  }

  /** Flipping statuses keeps every booking's slot and id. */
  lemma CancelStepRefs(st: Store, slotId: Id, candidate: Id)
    requires NoDangling(st) && FreshCounters(st)
    ensures NoDangling(CancelStep(st, slotId, candidate))
    ensures FreshCounters(CancelStep(st, slotId, candidate))
  {
    var st1 := CancelStep(st, slotId, candidate);
    assert forall x :: HasSlot(st1, x) <==> HasSlot(st, x) by {
      ShiftKeepsShape(st, st1, slotId, -1);
    }
    assert forall x :: x in st1.bookings ==> HasSlot(st1, x.slot) && x.id < st1.nextId by {
      forall x | x in st1.bookings ensures HasSlot(st1, x.slot) && x.id < st1.nextId {
        var i :| 0 <= i < |st1.bookings| && st1.bookings[i] == x;
        assert st.bookings[i] in st.bookings;
      }
    }
    assert forall s :: s in st1.slots ==> s.id < st1.nextId by {
      forall s | s in st1.slots ensures s.id < st1.nextId {
        var i :| 0 <= i < |st1.slots| && st1.slots[i] == s;
        assert st.slots[i] in st.slots;
      }
    }
    assert forall e :: e in st1.waitlist ==> HasSlot(st1, e.slot) && e.id < st1.nextId && e.created < st1.clock by {
      assert st1.waitlist == st.waitlist && st1.nextId == st.nextId && st1.clock == st.clock;
    }
  }

  /** Flipping statuses keeps every booking's id and key. */
  lemma CancelStepKeys(st: Store, slotId: Id, candidate: Id)
    requires UniqueBookingIds(st) && UniqueKeys(st)
    ensures UniqueBookingIds(CancelStep(st, slotId, candidate)) && UniqueKeys(CancelStep(st, slotId, candidate))
  {
    var bs := CancelStep(st, slotId, candidate).bookings;
    forall i, j | 0 <= i < j < |bs| ensures DistinctBookingIds(bs[i], bs[j]) && DistinctKeys(bs[i], bs[j]) {
      assert bs[i].id == st.bookings[i].id && bs[j].id == st.bookings[j].id;
      assert bs[i].key == st.bookings[i].key && bs[j].key == st.bookings[j].key;
      assert DistinctBookingIds(st.bookings[i], st.bookings[j]) && DistinctKeys(st.bookings[i], st.bookings[j]);
    }
  }

  /** The cancel step keeps every invariant; afterwards the slot has a free seat. */
  lemma CancelStepPreservesValid(st: Store, slotId: Id, candidate: Id)
    requires Valid(st)
    requires exists b :: b in st.bookings && ActiveFor(slotId, candidate)(b)
    ensures Valid(CancelStep(st, slotId, candidate))
    ensures HasRoom(CancelStep(st, slotId, candidate), slotId)
  {
    ShiftKeepsShape(st, CancelStep(st, slotId, candidate), slotId, -1);
    CancelStepSeats(st, slotId, candidate);
    CancelStepRefs(st, slotId, candidate);
    CancelStepKeys(st, slotId, candidate);
  }

  lemma CancelPreservesValid(st: Store, slotId: Id, candidate: Id)
    requires Valid(st)
    ensures CancelBooking(st, slotId, candidate).Ok? ==> Valid(CancelBooking(st, slotId, candidate).value.0)
  {
    if CancelBooking(st, slotId, candidate).Ok? {
      var i := IndexOf(st.bookings, ActiveFor(slotId, candidate)).value;
      assert st.bookings[i] in st.bookings;
      CancelStepPreservesValid(st, slotId, candidate);
      PromotePreservesValid(CancelStep(st, slotId, candidate), slotId);
      CancelIsStepThenPromote(st, slotId, candidate);
    }
  }

  /** booked_count equals the number of confirmed bookings, slot by slot. */
  ghost predicate ExactCounts(st: Store)
  {
    forall i :: 0 <= i < |st.slots| ==> Count(st.bookings, ConfirmedAt(st.slots[i].id)) == st.slots[i].booked
  }

  lemma CreateBookingKeepsExactCounts(st: Store, slotId: Id, candidate: Id, key: Option<string>)
    requires ExactCounts(st)
    ensures CreateBooking(st, slotId, candidate, key).Ok? ==> ExactCounts(CreateBooking(st, slotId, candidate, key).value.0)
  {
    var r := CreateBooking(st, slotId, candidate, key);
    if r.Ok? && !IsReplay(st, key) {
      forall j | 0 <= j < |st.slots|
        ensures Count(r.value.0.bookings, ConfirmedAt(r.value.0.slots[j].id)) == r.value.0.slots[j].booked
      {
        CountAppend(st.bookings, [r.value.1], ConfirmedAt(st.slots[j].id));
        CountSingle(r.value.1, ConfirmedAt(st.slots[j].id));
      }
    }
  }

  lemma PromoteKeepsExactCounts(st: Store, slotId: Id)
    requires ExactCounts(st)
    ensures ExactCounts(Promote(st, slotId).0)
  {
    if Oldest(st, slotId).Some? {
      var (st', b) := Promote(st, slotId);
      forall j | 0 <= j < |st.slots|
        ensures Count(st'.bookings, ConfirmedAt(st'.slots[j].id)) == st'.slots[j].booked
      {
        CountAppend(st.bookings, [b.value], ConfirmedAt(st.slots[j].id));
        CountSingle(b.value, ConfirmedAt(st.slots[j].id));
      }
    }
  }

  /**
    A cancel keeps booked_count equal to the confirmed count only when the
    candidate held a single confirmed booking on the slot: the update
    cancels all of them but gives back one seat.
   */
  lemma CancelKeepsExactCounts(st: Store, slotId: Id, candidate: Id)
    requires ExactCounts(st)
    requires Count(st.bookings, ActiveFor(slotId, candidate)) <= 1
    ensures CancelBooking(st, slotId, candidate).Ok? ==> ExactCounts(CancelBooking(st, slotId, candidate).value.0)
  {
    if CancelBooking(st, slotId, candidate).Ok? {
      var i := IndexOf(st.bookings, ActiveFor(slotId, candidate)).value;
      CountPositive(st.bookings, ActiveFor(slotId, candidate), st.bookings[i]);
      CancelStepKeepsExactCounts(st, slotId, candidate);
      PromoteKeepsExactCounts(CancelStep(st, slotId, candidate), slotId);
      CancelIsStepThenPromote(st, slotId, candidate);
    }
  }

  lemma CancelStepKeepsExactCounts(st: Store, slotId: Id, candidate: Id)
    requires ExactCounts(st)
    requires Count(st.bookings, ActiveFor(slotId, candidate)) == 1
    ensures ExactCounts(CancelStep(st, slotId, candidate))
  {
    var st1 := CancelStep(st, slotId, candidate);
    forall j | 0 <= j < |st1.slots|
      ensures Count(st1.bookings, ConfirmedAt(st1.slots[j].id)) == st1.slots[j].booked
    {
      CancelPairCount(st.bookings, slotId, candidate, st.slots[j].id);
    }
  }

  /** A row of `getBookingsByCandidateService`: the booking joined with its slot. */
  datatype BookingRow = BookingRow(
    id: Id,
    slot: Id,
    candidate: Id,
    status: Status,
    start: int,
    end: int,
    role: string)

  function BookingRowStart(row: BookingRow): int { row.start }

  function BookingRowOf(b: Booking, s: Slot): BookingRow
  {
    BookingRow(b.id, b.slot, b.candidate, b.status, s.start, s.end, s.role)
  }

  /** The inner join keeps only bookings whose slot exists. */
  function HeldWithSlot(st: Store, candidate: Id): Booking -> bool
  {
    (b: Booking) => b.candidate == candidate && HasSlot(st, b.slot)
  }

  /** The join of the candidate's bookings with their slots, in table order. */
  function CandidateRows(st: Store, candidate: Id): (rows: seq<BookingRow>)
    ensures |rows| == Count(st.bookings, HeldWithSlot(st, candidate))
  {
    var mine := Filter(st.bookings, HeldWithSlot(st, candidate));
    seq(|mine|, i requires 0 <= i < |mine| => BookingRowOf(mine[i], SlotOf(st, mine[i].slot)))
  }

  lemma CandidateRowsContents(st: Store, candidate: Id)
    ensures forall b :: b in st.bookings && b.candidate == candidate && HasSlot(st, b.slot) ==>
      BookingRowOf(b, SlotOf(st, b.slot)) in CandidateRows(st, candidate)
    ensures forall row :: row in CandidateRows(st, candidate) ==> exists b :: (b in st.bookings
      && b.candidate == candidate && HasSlot(st, b.slot) && row == BookingRowOf(b, SlotOf(st, b.slot)))
  {
    var mine := Filter(st.bookings, HeldWithSlot(st, candidate));
    var rows := CandidateRows(st, candidate);
    forall b | b in st.bookings && b.candidate == candidate && HasSlot(st, b.slot)
      ensures BookingRowOf(b, SlotOf(st, b.slot)) in rows
    {
      var i :| 0 <= i < |st.bookings| && st.bookings[i] == b;
      assert b in mine;
      var j :| 0 <= j < |mine| && mine[j] == b;
      assert rows[j] == BookingRowOf(b, SlotOf(st, b.slot));
    }
    forall row | row in rows ensures exists b :: (b in st.bookings && b.candidate == candidate
      && HasSlot(st, b.slot) && row == BookingRowOf(b, SlotOf(st, b.slot)))
    {
      var j :| 0 <= j < |rows| && rows[j] == row;
      assert HeldWithSlot(st, candidate)(mine[j]);
    }
  }

  /**
    `getBookingsByCandidateService`: the candidate's bookings of every status
    whose slot exists, joined with the slot, by slot start time.
   */
  function GetBookingsByCandidate(st: Store, candidate: Id): (r: seq<BookingRow>)
    ensures SortedBy(r, BookingRowStart)
    ensures |r| == Count(st.bookings, HeldWithSlot(st, candidate))
    ensures forall b :: b in st.bookings && b.candidate == candidate && HasSlot(st, b.slot) ==>
      BookingRowOf(b, SlotOf(st, b.slot)) in r
    ensures forall row :: row in r ==> exists b :: (b in st.bookings && b.candidate == candidate
      && HasSlot(st, b.slot) && row == BookingRowOf(b, SlotOf(st, b.slot)))
  {
    CandidateRowsContents(st, candidate);
    SortByMembers(CandidateRows(st, candidate), BookingRowStart);
    SortBy(CandidateRows(st, candidate), BookingRowStart)
  }
}

=== FILE: doublebook.dfy ===
/**
  A small history in which a candidate ends with two confirmed bookings on
  one slot through the waitlist: creating a booking never looks at the
  waitlist and joining never looks at free seats, so a candidate can queue
  for a slot and then book it, and a later cancel by someone else promotes
  the queued entry into a second booking.
 */
module DoubleBooking {
  import opened SeqUtil
  import opened Schema
  import opened WaitlistService
  import opened BookingService

  const OpenSlot := Slot(0, 1, "role", 600, 660, 2, 0)
  const Opened := Store([OpenSlot], [], [], 1, 0)
  const Queued := Entry(1, 0, 7, 0)
  const Joined := Store([OpenSlot], [], [Queued], 2, 1)
  const Own := Booking(2, 0, 7, Confirmed, None)
  const QueuedAndBooked := Store([OpenSlot.(booked := 1)], [Own], [Queued], 3, 1)
  const Other := Booking(3, 0, 8, Confirmed, None)
  const Filled := Store([OpenSlot.(booked := 2)], [Own, Other], [Queued], 4, 1)
  const Stepped := Store([OpenSlot.(booked := 1)], [Own, Other.(status := Cancelled)], [Queued], 4, 1)
  const Promoted := Booking(4, 0, 7, Confirmed, None)
  const DoubleBooked := Store([OpenSlot.(booked := 2)], [Own, Other.(status := Cancelled), Promoted], [], 5, 1)

  lemma OpenedValid()
    ensures Valid(Opened)
  {
  }

  lemma JoinOpenSlot()
    ensures JoinWaitlist(Opened, 0, 7) == Ok((Joined, Queued))
  {
    assert Opened.slots[0].id == 0;
    assert FindSlot(Opened, 0) == Some(0);
    assert Opened.waitlist + [Queued] == Joined.waitlist;
  }

  lemma BookWhileQueued()
    ensures CreateBooking(Joined, 0, 7, None) == Ok((QueuedAndBooked, Own))
  {
    assert Joined.slots[0].id == 0;
    assert FindSlot(Joined, 0) == Some(0);
    assert AdjustBooked(Joined.slots, 0, 1) == QueuedAndBooked.slots;
    assert Joined.bookings + [Own] == QueuedAndBooked.bookings;
  }

  lemma BookLastSeat()
    ensures CreateBooking(QueuedAndBooked, 0, 8, None) == Ok((Filled, Other))
  {
    assert QueuedAndBooked.slots[0].id == 0;
    assert FindSlot(QueuedAndBooked, 0) == Some(0);
    assert AdjustBooked(QueuedAndBooked.slots, 0, 1) == Filled.slots;
    assert QueuedAndBooked.bookings + [Other] == Filled.bookings;
  }

  lemma StepFilled()
    ensures CancelStep(Filled, 0, 8) == Stepped
  {
    assert AdjustBooked(Filled.slots, 0, -1) == Stepped.slots;
    assert CancelPair(Filled.bookings, 0, 8) == Stepped.bookings;
  }

  lemma PromoteStepped()
    ensures Promote(Stepped, 0) == (DoubleBooked, Some(Promoted))
  {
    assert Oldest(Stepped, 0) == Some(Queued) by {
      assert Stepped.waitlist[0] in Stepped.waitlist;
      assert forall e :: e in Stepped.waitlist ==> e == Queued;
    }
    assert Filter(Stepped.waitlist, EntryOtherThan(Queued.id)) == [];
    assert AdjustBooked(Stepped.slots, 0, 1) == DoubleBooked.slots;
    assert Stepped.bookings + [Promoted] == DoubleBooked.bookings;
  }

  lemma CancelPromotesQueued()
    ensures CancelBooking(Filled, 0, 8) == Ok((DoubleBooked, Cancellation(Other.(status := Cancelled), Some(Promoted))))
  {
    assert Filled.slots[0].id == 0;
    assert FindSlot(Filled, 0) == Some(0);
    assert IndexOf(Filled.bookings, ActiveFor(0, 8)) == Some(1);
    StepFilled();
    PromoteStepped();
  }

  lemma DoubleBookedCount()
    ensures Count(DoubleBooked.bookings, ActiveFor(0, 7)) == 2
  {
    assert DoubleBooked.bookings == [Own] + [Other.(status := Cancelled)] + [Promoted];
    CountAppend([Own] + [Other.(status := Cancelled)], [Promoted], ActiveFor(0, 7));
    CountAppend([Own], [Other.(status := Cancelled)], ActiveFor(0, 7));
    CountSingle(Own, ActiveFor(0, 7));
    CountSingle(Other.(status := Cancelled), ActiveFor(0, 7));
    CountSingle(Promoted, ActiveFor(0, 7));
  }

  /**
    Every store on the way satisfies the invariant. After the second
    create the candidate both holds a confirmed booking on the slot and
    waits for it; after the cancel by candidate 8 the candidate holds two
    confirmed bookings on the slot.
   */
  lemma WaitlistCanDoubleBook()
    ensures Valid(Opened)
    ensures JoinWaitlist(Opened, 0, 7) == Ok((Joined, Queued))
    ensures Valid(Joined)
    ensures CreateBooking(Joined, 0, 7, None) == Ok((QueuedAndBooked, Own))
    ensures Valid(QueuedAndBooked)
    ensures Queued in QueuedAndBooked.waitlist && Own in QueuedAndBooked.bookings
    ensures EntryFor(0, 7)(Queued) && ActiveFor(0, 7)(Own)
    ensures CreateBooking(QueuedAndBooked, 0, 8, None) == Ok((Filled, Other))
    ensures Valid(Filled)
    ensures CancelBooking(Filled, 0, 8) == Ok((DoubleBooked, Cancellation(Other.(status := Cancelled), Some(Promoted))))
    ensures Valid(DoubleBooked)
    ensures Count(DoubleBooked.bookings, ActiveFor(0, 7)) == 2
  {
    OpenedValid();
    JoinOpenSlot();
    JoinPreservesValid(Opened, 0, 7);
    BookWhileQueued();
    CreateBookingPreservesValid(Joined, 0, 7, None);
    BookLastSeat();
    CreateBookingPreservesValid(QueuedAndBooked, 0, 8, None);
    CancelPromotesQueued();
    CancelPreservesValid(Filled, 0, 8);
    DoubleBookedCount();
  }

  /**
    A candidate who is both booked and the oldest in the slot's queue
    cannot give the seat up: the cancel flips the booking, then promotes
    the same candidate into a new confirmed booking on the slot.
   */
  lemma CancelWhileQueuedRebooks(st: Store, slotId: Id, candidate: Id)
    requires UniqueEntryIds(st)
    requires HasSlot(st, slotId)
    requires exists b :: b in st.bookings && ActiveFor(slotId, candidate)(b)
    requires Oldest(st, slotId).Some? && Oldest(st, slotId).value.candidate == candidate
    ensures CancelBooking(st, slotId, candidate).Ok?
    ensures var (st', res) := CancelBooking(st, slotId, candidate).value;
      && res.promoted.Some?
      && res.promoted.value in st'.bookings
      && ActiveFor(slotId, candidate)(res.promoted.value)
      && st'.slots == st.slots
  {
    assert Oldest(st, slotId).value in st.waitlist;
    CancelWithWaitlist(st, slotId, candidate);
  }
}

=== FILE: drift.dfy ===
/**
  A small history in which booked_count and the number of confirmed
  bookings drift apart: a candidate books the same slot twice (create has
  no duplicate check), then one cancel cancels both bookings but frees a
  single seat.
 */
module CountDrift {
  import opened SeqUtil
  import opened Schema
  import opened BookingService

  const DriftSlot := Slot(0, 1, "role", 600, 660, 2, 0)
  const DriftStart := Store([DriftSlot], [], [], 1, 0)
  const DriftFirst := Booking(1, 0, 7, Confirmed, None)
  const DriftSecond := Booking(2, 0, 7, Confirmed, None)
  const DriftBookedOnce := Store([DriftSlot.(booked := 1)], [DriftFirst], [], 2, 0)
  const DriftBookedTwice := Store([DriftSlot.(booked := 2)], [DriftFirst, DriftSecond], [], 3, 0)
  const DriftCancelled := Store(
    [DriftSlot.(booked := 1)],
    [DriftFirst.(status := Cancelled), DriftSecond.(status := Cancelled)], [], 3, 0)

  lemma DriftStartExact()
    ensures Valid(DriftStart) && ExactCounts(DriftStart)
  {
    assert DriftStart.slots[0].id == 0;
    CountNone(DriftStart.bookings, ConfirmedAt(0));
  }

  lemma DriftStoresValid()
    ensures Valid(DriftBookedOnce) && Valid(DriftBookedTwice) && Valid(DriftCancelled)
  {
    DriftStartExact();
    DriftFirstBooking();
    CreateBookingPreservesValid(DriftStart, 0, 7, None);
    DriftSecondBooking();
    CreateBookingPreservesValid(DriftBookedOnce, 0, 7, None);
    DriftCancel();
    CancelPreservesValid(DriftBookedTwice, 0, 7);
  }

  lemma DriftCancelledCount()
    ensures Count(DriftCancelled.bookings, ConfirmedAt(0)) == 0
  {
    forall b | b in DriftCancelled.bookings ensures !ConfirmedAt(0)(b) {
    }
    CountNone(DriftCancelled.bookings, ConfirmedAt(0));
  }

  lemma DriftFirstBooking()
    ensures CreateBooking(DriftStart, 0, 7, None) == Ok((DriftBookedOnce, DriftFirst))
  {
    assert DriftStart.slots[0].id == 0;
    assert FindSlot(DriftStart, 0) == Some(0);
    assert AdjustBooked(DriftStart.slots, 0, 1) == DriftBookedOnce.slots;
    assert DriftStart.bookings + [DriftFirst] == DriftBookedOnce.bookings;
  }

  lemma DriftSecondBooking()
    ensures CreateBooking(DriftBookedOnce, 0, 7, None) == Ok((DriftBookedTwice, DriftSecond))
  {
    assert DriftBookedOnce.slots[0].id == 0;
    assert FindSlot(DriftBookedOnce, 0) == Some(0);
    assert AdjustBooked(DriftBookedOnce.slots, 0, 1) == DriftBookedTwice.slots;
    assert DriftBookedOnce.bookings + [DriftSecond] == DriftBookedTwice.bookings;
  }

  lemma DriftCancel()
    ensures CancelBooking(DriftBookedTwice, 0, 7).Ok?
    ensures CancelBooking(DriftBookedTwice, 0, 7).value.0 == DriftCancelled
  {
    var st := DriftBookedTwice;
    assert st.slots[0].id == 0;
    assert st.bookings[0] in st.bookings && ActiveFor(0, 7)(st.bookings[0]);
    CancelWithEmptyWaitlist(st, 0, 7);
    var st' := CancelBooking(st, 0, 7).value.0;
    assert st'.slots == DriftCancelled.slots;
    assert st'.bookings == DriftCancelled.bookings;
  }

  /**
    Without the single-booking assumption the counts drift apart: a
    candidate books the same slot twice (create has no duplicate check),
    then one cancel cancels both bookings but frees a single seat. Every
    store on the way satisfies the invariant.
   */
  lemma ConfirmedCountCanDrift()
    ensures Valid(DriftStart) && ExactCounts(DriftStart)
    ensures CreateBooking(DriftStart, 0, 7, None) == Ok((DriftBookedOnce, DriftFirst))
    ensures Valid(DriftBookedOnce)
    ensures CreateBooking(DriftBookedOnce, 0, 7, None) == Ok((DriftBookedTwice, DriftSecond))
    ensures Valid(DriftBookedTwice)
    ensures CancelBooking(DriftBookedTwice, 0, 7).Ok?
    ensures CancelBooking(DriftBookedTwice, 0, 7).value.0 == DriftCancelled
    ensures Valid(DriftCancelled)
    ensures DriftCancelled.slots[0].booked == 1 && Count(DriftCancelled.bookings, ConfirmedAt(0)) == 0
  {
    DriftStartExact();
    DriftFirstBooking();
    DriftSecondBooking();
    DriftCancel();
    DriftStoresValid();
    DriftCancelledCount();
  }
}

=== FILE: schema.dfy ===
/**
  The three tables the services read and write (`slots`, `bookings`,
  `waitlist`), the errors they throw, and the invariants the services are
  meant to keep.

  Row identities come from `uuidv4()` and timestamps from `NOW()`; both are
  modelled by counters in the store: `nextId` is a fresh identity for every
  inserted row and `clock` is a logical tick that grows with each waitlist
  insertion, so creation order and insertion order agree.
 */
module Schema {
  import opened SeqUtil

  type Id = nat

  /** A row of `slots`; `start < end` is checked when it is created. */
  datatype Slot = Slot(
    id: Id,
    interviewer: Id,
    role: string,
    start: int,
    end: int,
    capacity: int,
    booked: int)

  datatype Status = Confirmed | Cancelled

  /** A row of `bookings`; `key` is the idempotency key, NULL when absent. */
  datatype Booking = Booking(id: Id, slot: Id, candidate: Id, status: Status, key: Option<string>)

  /** A row of `waitlist`; `created` is the `created_at` column. */
  datatype Entry = Entry(id: Id, slot: Id, candidate: Id, created: nat)

  datatype Store = Store(
    slots: seq<Slot>,
    bookings: seq<Booking>,
    waitlist: seq<Entry>,
    nextId: Id,
    clock: nat)

  const EmptyStore := Store([], [], [], 0, 0)

  /** The conditions under which a service throws and rolls back. */
  datatype Error =
    | SlotNotFound
    | SlotFull
    | BookingNotFound
    | AlreadyBooked
    | AlreadyInWaitlist
    | InvalidTimeRange
    | ScheduleConflict
    | Unauthorized

  /** The text of the `Error` each service throws. */
  function Message(e: Error): string
  {
    match e
    case SlotNotFound => "Slot not found"
    case SlotFull => "Slot is full"
    case BookingNotFound => "Confirmed booking not found"
    case AlreadyBooked => "Already booked"
    case AlreadyInWaitlist => "Already in waitlist"
    case InvalidTimeRange => "Invalid time range"
    case ScheduleConflict => "Schedule conflict"
    case Unauthorized => "Unauthorized"
  }

  /** A service call either commits a value or rolls back with an error. */
  datatype Result<T> = Ok(value: T) | Err(error: Error)

  // Row selectors: the `WHERE` clauses of the services.

  function SlotWithId(id: Id): Slot -> bool { (s: Slot) => s.id == id }
  function SlotOtherThan(id: Id): Slot -> bool { (s: Slot) => s.id != id }
  function ConfirmedAt(slot: Id): Booking -> bool { (b: Booking) => b.slot == slot && b.status == Confirmed }
  function ActiveFor(slot: Id, candidate: Id): Booking -> bool {
    (b: Booking) => b.slot == slot && b.candidate == candidate && b.status == Confirmed
  }
  function HeldBy(slot: Id, candidate: Id): Booking -> bool { (b: Booking) => b.slot == slot && b.candidate == candidate }
  function BookingOutside(slot: Id): Booking -> bool { (b: Booking) => b.slot != slot }
  function WithKey(key: string): Booking -> bool { (b: Booking) => b.key == Some(key) }
  function EntryAt(slot: Id): Entry -> bool { (e: Entry) => e.slot == slot }
  function EntryFor(slot: Id, candidate: Id): Entry -> bool { (e: Entry) => e.slot == slot && e.candidate == candidate }
  function EntryOutside(slot: Id): Entry -> bool { (e: Entry) => e.slot != slot }
  function EntryOtherThan(id: Id): Entry -> bool { (e: Entry) => e.id != id }

  predicate HasSlot(st: Store, id: Id)
  {
    exists i :: 0 <= i < |st.slots| && st.slots[i].id == id
  }

  /** `SELECT * FROM slots WHERE id = $1`: the first matching row. */
  function FindSlot(st: Store, id: Id): (r: Option<nat>)
    ensures r.Some? <==> HasSlot(st, id)
    ensures r.Some? ==> r.value < |st.slots| && st.slots[r.value].id == id
  {
    IndexOf(st.slots, SlotWithId(id))
  }

  function SlotOf(st: Store, id: Id): Slot
    requires HasSlot(st, id)
  {
    st.slots[FindSlot(st, id).value]
  }

  /** `UPDATE slots SET booked_count = booked_count + delta WHERE id = $1`. */
  function AdjustBooked(slots: seq<Slot>, id: Id, delta: int): (r: seq<Slot>)
    ensures SeatsShifted(slots, r, id, delta)
  {
    seq(|slots|, i requires 0 <= i < |slots| =>
      if slots[i].id == id then slots[i].(booked := slots[i].booked + delta) else slots[i])
  }

  /** `after` is `before` with the booked_count of the slot(s) `id` moved by `delta`, nothing else changed. */
  ghost predicate SeatsShifted(before: seq<Slot>, after: seq<Slot>, id: Id, delta: int)
  {
    && |after| == |before|
    && forall i :: 0 <= i < |before| ==>
         after[i] == before[i].(booked := before[i].booked + (if before[i].id == id then delta else 0))
  }

  // Invariants.

  /** [aStart, aEnd) and [bStart, bEnd) share a point, as half-open intervals. */
  predicate RangesOverlap(aStart: int, aEnd: int, bStart: int, bEnd: int)
  {
    aStart < bEnd && aEnd > bStart
  }

  predicate Overlaps(a: Slot, b: Slot)
  {
    RangesOverlap(a.start, a.end, b.start, b.end)
  }

  predicate DistinctSlotIds(a: Slot, b: Slot) { a.id != b.id }
  predicate Disjoint(a: Slot, b: Slot) { a.interviewer == b.interviewer ==> !Overlaps(a, b) }
  predicate DistinctEntryIds(a: Entry, b: Entry) { a.id != b.id }
  predicate DistinctPairs(a: Entry, b: Entry) { a.slot != b.slot || a.candidate != b.candidate }
  predicate CreatedBefore(a: Entry, b: Entry) { a.created < b.created }
  predicate DistinctKeys(a: Booking, b: Booking) { a.key.None? || a.key != b.key }
  predicate DistinctBookingIds(a: Booking, b: Booking) { a.id != b.id }

  ghost predicate UniqueSlotIds(st: Store) { Pairwise(st.slots, DistinctSlotIds) }

  /** No two slots of one interviewer overlap as half-open intervals. */
  ghost predicate NoOverlap(st: Store) { Pairwise(st.slots, Disjoint) }

  ghost predicate ProperRanges(st: Store)
  {
    forall i :: 0 <= i < |st.slots| ==> st.slots[i].start < st.slots[i].end
  }

  /** 0 <= booked_count <= capacity for every slot. */
  ghost predicate SeatsWithinCapacity(st: Store)
  {
    forall i :: 0 <= i < |st.slots| ==> 0 <= st.slots[i].booked <= st.slots[i].capacity
  }

  /** booked_count never falls below the number of confirmed bookings of the slot. */
  ghost predicate SeatsCoverConfirmed(st: Store)
  {
    forall i :: 0 <= i < |st.slots| ==> Count(st.bookings, ConfirmedAt(st.slots[i].id)) <= st.slots[i].booked
  }

  /** At most one waitlist entry per (slot, candidate). */
  ghost predicate OneEntryPerPair(st: Store) { Pairwise(st.waitlist, DistinctPairs) }

  ghost predicate UniqueEntryIds(st: Store) { Pairwise(st.waitlist, DistinctEntryIds) }

  /** Table order of the waitlist is creation order. */
  ghost predicate FifoOrder(st: Store) { Pairwise(st.waitlist, CreatedBefore) }

  ghost predicate UniqueBookingIds(st: Store) { Pairwise(st.bookings, DistinctBookingIds) }

  /** A present idempotency key is carried by one booking only. */
  ghost predicate UniqueKeys(st: Store) { Pairwise(st.bookings, DistinctKeys) }

  /** No booking or waitlist entry refers to a slot that does not exist. */
  ghost predicate NoDangling(st: Store)
  {
    && (forall b :: b in st.bookings ==> HasSlot(st, b.slot))
    && (forall e :: e in st.waitlist ==> HasSlot(st, e.slot))
  }

  /** Every identity and tick in use was drawn before the counters. */
  ghost predicate FreshCounters(st: Store)
  {
    && (forall s :: s in st.slots ==> s.id < st.nextId)
    && (forall b :: b in st.bookings ==> b.id < st.nextId)
    && (forall e :: e in st.waitlist ==> e.id < st.nextId && e.created < st.clock)
  }

  ghost predicate Valid(st: Store)
  {
    && UniqueSlotIds(st)
    && NoOverlap(st)
    && ProperRanges(st)
    && SeatsWithinCapacity(st)
    && SeatsCoverConfirmed(st)
    && OneEntryPerPair(st)
    && UniqueEntryIds(st)
    && FifoOrder(st)
    && UniqueBookingIds(st)
    && UniqueKeys(st)
    && NoDangling(st)
    && FreshCounters(st)
  }

  /** With unique ids, the slot found by id is the only one with that id. */
  lemma SlotOfUnique(st: Store, id: Id, i: nat)
    requires UniqueSlotIds(st)
    requires i < |st.slots| && st.slots[i].id == id
    ensures HasSlot(st, id) && FindSlot(st, id) == Some(i) && SlotOf(st, id) == st.slots[i]
  {
    var k := FindSlot(st, id).value;
    assert k <= i;
  }

  /** Moving booked_count leaves ids, intervals and the slot-shape invariants as they were. */
  lemma ShiftKeepsShape(st: Store, st': Store, id: Id, delta: int)
    requires SeatsShifted(st.slots, st'.slots, id, delta)
    ensures UniqueSlotIds(st') <==> UniqueSlotIds(st)
    ensures NoOverlap(st') <==> NoOverlap(st)
    ensures ProperRanges(st') <==> ProperRanges(st)
    ensures forall x :: HasSlot(st', x) <==> HasSlot(st, x)
  {
    assert forall i :: 0 <= i < |st.slots| ==>
      st'.slots[i].id == st.slots[i].id && st'.slots[i].interviewer == st.slots[i].interviewer
      && st'.slots[i].start == st.slots[i].start && st'.slots[i].end == st.slots[i].end;
  }

  /** Appending a fresh entry for an existing slot keeps every reference and counter in order. */
  lemma AppendEntryKeepsRefs(st: Store, e: Entry)
    requires NoDangling(st) && FreshCounters(st)
    requires HasSlot(st, e.slot) && e.id == st.nextId && e.created == st.clock
    ensures NoDangling(st.(waitlist := st.waitlist + [e], nextId := st.nextId + 1, clock := st.clock + 1))
    ensures FreshCounters(st.(waitlist := st.waitlist + [e], nextId := st.nextId + 1, clock := st.clock + 1))
  {
  }

  /** Appending a fresh booking for an existing slot, with its seat taken, keeps references and counters in order. */
  lemma AppendBookingKeepsRefs(st: Store, st': Store, b: Booking)
    requires NoDangling(st) && FreshCounters(st)
    requires HasSlot(st, b.slot) && b.id == st.nextId
    requires SeatsShifted(st.slots, st'.slots, b.slot, 1)
    requires st'.bookings == st.bookings + [b]
    requires forall e :: e in st'.waitlist ==> e in st.waitlist
    requires st'.nextId == st.nextId + 1 && st'.clock == st.clock
    ensures NoDangling(st') && FreshCounters(st')
  {
    assert forall x :: HasSlot(st', x) <==> HasSlot(st, x) by {
      ShiftKeepsShape(st, st', b.slot, 1);
    }
    assert forall s :: s in st'.slots ==> s.id < st'.nextId by {
      forall s | s in st'.slots ensures s.id < st'.nextId {
        var i :| 0 <= i < |st'.slots| && st'.slots[i] == s;
        assert st.slots[i] in st.slots;
      }
    }
    assert forall x :: x in st'.bookings ==> HasSlot(st', x.slot) && x.id < st'.nextId by {
      forall x | x in st'.bookings ensures HasSlot(st', x.slot) && x.id < st'.nextId {
        if x != b {
          assert x in st.bookings;
        }
      }
    }
    assert forall e :: e in st'.waitlist ==> HasSlot(st', e.slot) && e.id < st'.nextId && e.created < st'.clock by {
      forall e | e in st'.waitlist ensures HasSlot(st', e.slot) && e.id < st'.nextId && e.created < st'.clock {
        assert e in st.waitlist;
      }
    }
  }

  /** Appending a booking with a fresh id and a key, if any, that no booking carries yet keeps ids and keys unique. */
  lemma AppendBookingKeepsKeys(bs: seq<Booking>, b: Booking)
    requires Pairwise(bs, DistinctBookingIds) && Pairwise(bs, DistinctKeys)
    requires forall x :: x in bs ==> x.id != b.id
    requires b.key.Some? ==> forall x :: x in bs ==> x.key != b.key
    ensures Pairwise(bs + [b], DistinctBookingIds) && Pairwise(bs + [b], DistinctKeys)
  {
    PairwiseAppend(bs, b, DistinctBookingIds);
    PairwiseAppend(bs, b, DistinctKeys);
  }

  /** A confirmed booking added together with its seat keeps every slot's seats covering its confirmed bookings. */
  lemma AppendBookingKeepsCover(st: Store, st': Store, b: Booking)
    requires SeatsCoverConfirmed(st)
    requires SeatsShifted(st.slots, st'.slots, b.slot, 1)
    requires st'.bookings == st.bookings + [b]
    ensures SeatsCoverConfirmed(st')
  {
    forall i | 0 <= i < |st'.slots|
      ensures Count(st'.bookings, ConfirmedAt(st'.slots[i].id)) <= st'.slots[i].booked
    {
      CountAppend(st.bookings, [b], ConfirmedAt(st.slots[i].id));
      CountSingle(b, ConfirmedAt(st.slots[i].id));
    }
  }

  lemma EmptyStoreValid()
    ensures Valid(EmptyStore)
  {
  }
}

=== FILE: sequtil.dfy ===
/**
  Generic sequence helpers used to express the SQL the services issue:
  `WHERE` becomes `Filter`, taking `rows[0]` of an unordered `SELECT`
  (and testing `rows.length > 0`) becomes `IndexOf`, `COUNT` becomes
  `Count`, and `ORDER BY key ASC` becomes `SortBy`; the head of `SortBy`
  is `ORDER BY key ASC LIMIT 1`.
 */
module SeqUtil {

  datatype Option<+T> = None | Some(value: T)

  /** The elements of `s` that satisfy `p`, in their original order. */
  function Filter<T>(s: seq<T>, p: T -> bool): (r: seq<T>)
    ensures |r| <= |s|
    ensures forall i :: 0 <= i < |r| ==> r[i] in s && p(r[i])
    ensures forall i :: 0 <= i < |s| && p(s[i]) ==> s[i] in r
  {
    if |s| == 0 then []
    else if p(s[0]) then [s[0]] + Filter(s[1..], p)
    else Filter(s[1..], p)
  }

  /** Number of elements of `s` that satisfy `p`. */
  function Count<T>(s: seq<T>, p: T -> bool): nat
  {
    |Filter(s, p)|
  }

  /** Index of the first element of `s` that satisfies `p`, if any. */
  function IndexOf<T>(s: seq<T>, p: T -> bool): (r: Option<nat>)
    ensures r.Some? ==> r.value < |s| && p(s[r.value])
    ensures r.Some? ==> forall j :: 0 <= j < r.value ==> !p(s[j])
    ensures r.None? <==> forall j :: 0 <= j < |s| ==> !p(s[j])
  {
    if |s| == 0 then None
    else if p(s[0]) then Some(0)
    else match IndexOf(s[1..], p)
      case None => None
      case Some(k) => Some(k + 1)
  }

  /** `rel` holds between every element and every later one. */
  ghost predicate Pairwise<T>(s: seq<T>, rel: (T, T) -> bool)
  {
    forall i, j :: 0 <= i < j < |s| ==> rel(s[i], s[j])
  }

  predicate SortedBy<T>(s: seq<T>, key: T -> int)
  {
    forall i, j :: 0 <= i < j < |s| ==> key(s[i]) <= key(s[j])
  }

  /** Inserts `x` before the first element whose key is not smaller. */
  function Insert<T>(x: T, s: seq<T>, key: T -> int): (r: seq<T>)
    ensures multiset(r) == multiset(s) + multiset{x}
    ensures SortedBy(s, key) ==> SortedBy(r, key)
  {
    if |s| == 0 then [x]
    else if key(x) <= key(s[0]) then [x] + s
    else
      var rest := Insert(x, s[1..], key);
      assert s == [s[0]] + s[1..];
      if SortedBy(s, key) then
        PrependLeast(s[0], rest, s[1..], x, key);
        [s[0]] + rest
      else
        [s[0]] + rest
  }

  /** Putting an element in front of a sorted sequence of no-smaller keys keeps it sorted. */
  lemma PrependLeast<T>(y: T, rest: seq<T>, tail: seq<T>, x: T, key: T -> int)
    requires SortedBy(rest, key)
    requires multiset(rest) == multiset(tail) + multiset{x}
    requires key(y) <= key(x)
    requires forall k :: 0 <= k < |tail| ==> key(y) <= key(tail[k])
    ensures SortedBy([y] + rest, key)
  {
    forall j | 0 <= j < |rest| ensures key(y) <= key(rest[j]) {
      assert rest[j] in multiset(rest);
      if rest[j] != x {
        assert rest[j] in multiset(tail);
      }
    }
    var r := [y] + rest;
    forall i, j | 0 <= i < j < |r| ensures key(r[i]) <= key(r[j]) {
      assert r[j] == rest[j - 1];
      if i > 0 {
        assert r[i] == rest[i - 1];
      }
    }
  }

  /** A stable insertion sort: `ORDER BY key ASC`. */
  function SortBy<T>(s: seq<T>, key: T -> int): (r: seq<T>)
    ensures SortedBy(r, key)
    ensures multiset(r) == multiset(s)
    ensures |r| == |s|
  {
    if |s| == 0 then []
    else
      assert s == [s[0]] + s[1..];
      Insert(s[0], SortBy(s[1..], key), key)
  }

  lemma SortByMembers<T>(s: seq<T>, key: T -> int)
    ensures forall x :: x in SortBy(s, key) <==> x in s
  {
    var r := SortBy(s, key);
    forall x ensures x in r <==> x in s {
      assert x in r <==> x in multiset(r);
      assert x in s <==> x in multiset(s);
    }
  }

  lemma {:induction false} FilterAppend<T>(a: seq<T>, b: seq<T>, p: T -> bool)
    ensures Filter(a + b, p) == Filter(a, p) + Filter(b, p)
  {
    if |a| == 0 {
      assert a + b == b;
    } else {
      assert (a + b)[1..] == a[1..] + b;
      FilterAppend(a[1..], b, p);
    }
  }

  lemma CountAppend<T>(a: seq<T>, b: seq<T>, p: T -> bool)
    ensures Count(a + b, p) == Count(a, p) + Count(b, p)
  {
    FilterAppend(a, b, p);
  }

  lemma CountSingle<T>(x: T, p: T -> bool)
    ensures Count([x], p) == if p(x) then 1 else 0
  {
    assert [x][1..] == [];
  }

  lemma CountPositive<T>(s: seq<T>, p: T -> bool, x: T)
    requires x in s && p(x)
    ensures Count(s, p) >= 1
  {
    assert x in Filter(s, p);
  }

  /** The head of a filter is the first element that passes it. */
  lemma {:induction false} FilterHeadIsFirst<T>(s: seq<T>, p: T -> bool)
    requires |Filter(s, p)| > 0
    ensures IndexOf(s, p).Some? && Filter(s, p)[0] == s[IndexOf(s, p).value]
  {
    if !p(s[0]) {
      assert Filter(s, p) == Filter(s[1..], p);
      FilterHeadIsFirst(s[1..], p);
      var k := IndexOf(s[1..], p).value;
      assert IndexOf(s, p) == Some(k + 1) && s[1..][k] == s[k + 1];
    }
  }

  lemma {:induction false} CountNone<T>(s: seq<T>, p: T -> bool)
    requires forall x :: x in s ==> !p(x)
    ensures Count(s, p) == 0
  {
    if |s| > 0 {
      CountNone(s[1..], p);
    }
  }

  /** Removing by a predicate that rejects nothing leaves the sequence alone. */
  lemma {:induction false} FilterKeepsAll<T>(s: seq<T>, p: T -> bool)
    requires forall x :: x in s ==> p(x)
    ensures Filter(s, p) == s
  {
    if |s| > 0 {
      FilterKeepsAll(s[1..], p);
    }
  }

  /** Filtering by `q` first does not change the `p`-elements when `p` implies `q`. */
  lemma {:induction false} FilterNarrow<T>(s: seq<T>, q: T -> bool, p: T -> bool)
    requires forall x :: x in s && p(x) ==> q(x)
    ensures Filter(Filter(s, q), p) == Filter(s, p)
  {
    if |s| > 0 {
      FilterNarrow(s[1..], q, p);
      if q(s[0]) {
        assert Filter(s, q) == [s[0]] + Filter(s[1..], q);
        assert ([s[0]] + Filter(s[1..], q))[1..] == Filter(s[1..], q);
      }
    }
  }

  lemma {:induction false} CountImplies<T>(s: seq<T>, p: T -> bool, q: T -> bool)
    requires forall x :: x in s && p(x) ==> q(x)
    ensures Count(s, p) <= Count(s, q)
  {
    if |s| > 0 {
      CountImplies(s[1..], p, q);
    }
  }

  /** When exactly the element at `k` fails `p`, filtering removes that element only. */
  lemma {:induction false} FilterDropsOne<T>(s: seq<T>, p: T -> bool, k: nat)
    requires k < |s| && !p(s[k])
    requires forall i :: 0 <= i < |s| && i != k ==> p(s[i])
    ensures Filter(s, p) == s[..k] + s[k + 1..]
  {
    if k == 0 {
      FilterKeepsAll(s[1..], p);
    } else {
      assert s[1..][k - 1] == s[k];
      FilterDropsOne(s[1..], p, k - 1);
      assert s[1..][..k - 1] == s[1..k];
      assert s[1..][k..] == s[k + 1..];
      assert s[..k] == [s[0]] + s[1..k];
    }
  }

  lemma {:induction false} FilterPairwise<T>(s: seq<T>, p: T -> bool, rel: (T, T) -> bool)
    requires Pairwise(s, rel)
    ensures Pairwise(Filter(s, p), rel)
  {
    if |s| > 0 {
      assert Pairwise(s[1..], rel) by {
        forall i, j | 0 <= i < j < |s[1..]| ensures rel(s[1..][i], s[1..][j]) {
          assert s[1..][i] == s[i + 1] && s[1..][j] == s[j + 1];
        }
      }
      FilterPairwise(s[1..], p, rel);
      if p(s[0]) {
        var rest := Filter(s[1..], p);
        forall j | 0 <= j < |rest| ensures rel(s[0], rest[j]) {
          assert rest[j] in s[1..];
          var k :| 0 <= k < |s[1..]| && s[1..][k] == rest[j];
          assert s[k + 1] == rest[j];
        }
        assert Filter(s, p) == [s[0]] + rest;
      }
    }
  }

  lemma PairwiseAppend<T>(s: seq<T>, x: T, rel: (T, T) -> bool)
    requires Pairwise(s, rel)
    requires forall y :: y in s ==> rel(y, x)
    ensures Pairwise(s + [x], rel)
  {
    forall i, j | 0 <= i < j < |s + [x]| ensures rel((s + [x])[i], (s + [x])[j]) {
      assert (s + [x])[i] == s[i];
      if j < |s| {
        assert (s + [x])[j] == s[j];
      }
    }
  }

  /** The first element of a sorted permutation has the least key. */
  lemma SortedHeadIsLeast<T>(r: seq<T>, s: seq<T>, key: T -> int)
    requires SortedBy(r, key) && multiset(r) == multiset(s) && |r| > 0
    ensures r[0] in s
    ensures forall y :: y in s ==> key(r[0]) <= key(y)
  {
    assert r[0] in multiset(r);
    forall y | y in s ensures key(r[0]) <= key(y) {
      assert y in multiset(r);
      var j :| 0 <= j < |r| && r[j] == y;
    }
  }

  /** The sort is stable on input that is already in order: it returns it unchanged. */
  lemma {:induction false} SortByKeepsSorted<T>(s: seq<T>, key: T -> int)
    requires SortedBy(s, key)
    ensures SortBy(s, key) == s
  {
    if |s| > 0 {
      assert SortedBy(s[1..], key) by {
        forall i, j | 0 <= i < j < |s[1..]| ensures key(s[1..][i]) <= key(s[1..][j]) {
          assert s[1..][i] == s[i + 1] && s[1..][j] == s[j + 1];
        }
      }
      SortByKeepsSorted(s[1..], key);
      assert s == [s[0]] + s[1..];
    }
  }
}

=== FILE: slots.dfy ===
/**
  The slot service: creating a slot (time-range validation and the
  per-interviewer overlap check), listing all slots with their derived seat
  and waitlist counts, and deleting a slot together with its bookings and
  waitlist entries.
 */
module SlotService {
  import opened SeqUtil
  import opened Schema

  /** The conflict query: a slot of the same interviewer overlapping [start, end). */
  predicate Conflicts(s: Slot, interviewer: Id, start: int, end: int)
  {
    s.interviewer == interviewer && RangesOverlap(s.start, s.end, start, end)
  }

  /** `createSlotService`. */
  function CreateSlot(st: Store, interviewer: Id, role: string, start: int, end: int, capacity: int)
    : (r: Result<(Store, Slot)>)
    ensures start >= end ==> r == Err(InvalidTimeRange)
    ensures r.Err? ==> r.error == InvalidTimeRange || r.error == ScheduleConflict
    ensures r.Ok? ==>
      && r.value.0.slots == st.slots + [r.value.1]
      && r.value.0.bookings == st.bookings
      && r.value.0.waitlist == st.waitlist
      && r.value.1 == Slot(r.value.1.id, interviewer, role, start, end, capacity, 0)
      && (FreshCounters(st) ==> forall s :: s in st.slots ==> s.id != r.value.1.id)
  {
    if start >= end then Err(InvalidTimeRange)
    else if exists i :: 0 <= i < |st.slots| && Conflicts(st.slots[i], interviewer, start, end) then
      Err(ScheduleConflict)
    else
      var slot := Slot(st.nextId, interviewer, role, start, end, capacity, 0);
      Ok((st.(slots := st.slots + [slot], nextId := st.nextId + 1), slot))
  }

  /**
    A slot is accepted exactly when its range is proper and it is disjoint,
    as a half-open interval, from every slot of the same interviewer; slots
    of other interviewers never stand in the way.
   */
  lemma CreateSlotAcceptsIff(st: Store, interviewer: Id, role: string, start: int, end: int, capacity: int)
    ensures CreateSlot(st, interviewer, role, start, end, capacity).Ok? <==>
      && start < end
      && forall s :: s in st.slots && s.interviewer == interviewer ==> s.end <= start || end <= s.start
    ensures CreateSlot(st, interviewer, role, start, end, capacity) == Err(ScheduleConflict) <==>
      && start < end
      && exists s :: s in st.slots && s.interviewer == interviewer && RangesOverlap(s.start, s.end, start, end)
  {
    if start < end && exists s :: s in st.slots && s.interviewer == interviewer && RangesOverlap(s.start, s.end, start, end) {
      var s :| s in st.slots && s.interviewer == interviewer && RangesOverlap(s.start, s.end, start, end);
      var i :| 0 <= i < |st.slots| && st.slots[i] == s;
      assert Conflicts(st.slots[i], interviewer, start, end);
    }
  }

  /** The adjacency example: [10, 11) is taken, [11, 12) is accepted, [10:30, 11:30) conflicts. */
  lemma AdjacentSlotAccepted(st: Store, interviewer: Id, other: Id)
    requires st == Store([Slot(0, interviewer, "role", 600, 660, 2, 0)], [], [], 1, 0)
    requires other != interviewer
    ensures CreateSlot(st, interviewer, "role", 660, 720, 2).Ok?
    ensures CreateSlot(st, interviewer, "role", 630, 690, 2) == Err(ScheduleConflict)
    ensures CreateSlot(st, other, "role", 630, 690, 2).Ok?
  {
    assert Conflicts(st.slots[0], interviewer, 630, 690);
  }

  /** The new slot has a proper range and no bookings, and every other slot is as it was. */
  lemma CreateSlotKeepsSeats(st: Store, interviewer: Id, role: string, start: int, end: int, capacity: int)
    requires ProperRanges(st) && SeatsWithinCapacity(st) && SeatsCoverConfirmed(st)
    requires NoDangling(st) && FreshCounters(st)
    requires capacity >= 0
    requires CreateSlot(st, interviewer, role, start, end, capacity).Ok?
    ensures ProperRanges(CreateSlot(st, interviewer, role, start, end, capacity).value.0)
    ensures SeatsWithinCapacity(CreateSlot(st, interviewer, role, start, end, capacity).value.0)
    ensures SeatsCoverConfirmed(CreateSlot(st, interviewer, role, start, end, capacity).value.0)
  {
    var (st', slot) := CreateSlot(st, interviewer, role, start, end, capacity).value;
    assert Count(st.bookings, ConfirmedAt(slot.id)) == 0 by {
      forall b | b in st.bookings ensures !ConfirmedAt(slot.id)(b) {
        var i :| 0 <= i < |st.slots| && st.slots[i].id == b.slot;
        assert st.slots[i] in st.slots;
      }
      CountNone(st.bookings, ConfirmedAt(slot.id));
    }
    forall i | 0 <= i < |st'.slots|
      ensures st'.slots[i].start < st'.slots[i].end && 0 <= st'.slots[i].booked <= st'.slots[i].capacity
      ensures Count(st'.bookings, ConfirmedAt(st'.slots[i].id)) <= st'.slots[i].booked
    {
      if i < |st.slots| {
        assert st'.slots[i] == st.slots[i];
      }
    }
  }

  lemma CreateSlotPreservesValid(st: Store, interviewer: Id, role: string, start: int, end: int, capacity: int)
    requires Valid(st)
    requires capacity >= 0
    ensures CreateSlot(st, interviewer, role, start, end, capacity).Ok? ==>
      Valid(CreateSlot(st, interviewer, role, start, end, capacity).value.0)
  {
    var r := CreateSlot(st, interviewer, role, start, end, capacity);
    if r.Ok? {
      var st', slot := r.value.0, r.value.1;
      assert UniqueSlotIds(st') && NoOverlap(st') by {
        forall y | y in st.slots ensures DistinctSlotIds(y, slot) && Disjoint(y, slot) {
          var i :| 0 <= i < |st.slots| && st.slots[i] == y;
          assert !Conflicts(st.slots[i], interviewer, start, end);
        }
        PairwiseAppend(st.slots, slot, DistinctSlotIds);
        PairwiseAppend(st.slots, slot, Disjoint);
      }
      CreateSlotKeepsSeats(st, interviewer, role, start, end, capacity);
      assert OneEntryPerPair(st') && UniqueEntryIds(st') && FifoOrder(st') && UniqueBookingIds(st') && UniqueKeys(st') by {
        assert st'.bookings == st.bookings && st'.waitlist == st.waitlist;
      }
      assert NoDangling(st') && FreshCounters(st') by {
        forall id | HasSlot(st, id) ensures HasSlot(st', id) {
          var i :| 0 <= i < |st.slots| && st.slots[i].id == id;
          assert st'.slots[i] == st.slots[i];
        }
      }
    }
  }

  /** A row of `getAllSlotsService`. */
  datatype SlotRow = SlotRow(slot: Slot, available: int, waitlistCount: nat)

  function RowStart(row: SlotRow): int { row.slot.start }

  function RowOf(st: Store, s: Slot): SlotRow
  {
    SlotRow(s, s.capacity - s.booked, Count(st.waitlist, EntryAt(s.id)))
  }

  /** Every slot with its derived counts, in table order. */
  function SlotRows(st: Store): (rows: seq<SlotRow>)
    ensures |rows| == |st.slots|
  {
    seq(|st.slots|, i requires 0 <= i < |st.slots| => RowOf(st, st.slots[i]))
  }

  lemma SlotRowsContents(st: Store)
    ensures forall row :: row in SlotRows(st) <==> row.slot in st.slots && row == RowOf(st, row.slot)
  {
    var rows := SlotRows(st);
    forall row: SlotRow | row.slot in st.slots && row == RowOf(st, row.slot) ensures row in rows {
      var i :| 0 <= i < |st.slots| && st.slots[i] == row.slot;
      assert rows[i] == row;
    }
  }

  /** `getAllSlotsService`: every slot once, with derived counts, by start time. */
  function GetAllSlots(st: Store): (rows: seq<SlotRow>)
    ensures SortedBy(rows, RowStart)
    ensures |rows| == |st.slots|
    ensures forall row :: row in rows <==>
      && row.slot in st.slots
      && row.available == row.slot.capacity - row.slot.booked
      && row.waitlistCount == Count(st.waitlist, EntryAt(row.slot.id))
  {
    SlotRowsContents(st);
    SortByMembers(SlotRows(st), RowStart);
    SortBy(SlotRows(st), RowStart)
  }

  /** Under the invariant no slot is listed with a negative number of free seats. */
  lemma ListedSeatsNonNegative(st: Store)
    requires Valid(st)
    ensures forall row :: row in GetAllSlots(st) ==> 0 <= row.available <= row.slot.capacity
  {
    forall row | row in GetAllSlots(st) ensures 0 <= row.available <= row.slot.capacity {
      var i :| 0 <= i < |st.slots| && st.slots[i] == row.slot;
    }
  }

  predicate OwnsSlot(st: Store, slotId: Id, recruiter: Id)
  {
    exists i :: 0 <= i < |st.slots| && st.slots[i].id == slotId && st.slots[i].interviewer == recruiter
  }

  /** `deleteSlotService`: the ownership check, then the three deletes as one unit. */
  function DeleteSlot(st: Store, slotId: Id, recruiter: Id): (r: Result<Store>)
    ensures r.Err? <==> !OwnsSlot(st, slotId, recruiter)
    ensures r.Err? ==> r.error == Unauthorized
    ensures r.Ok? ==>
      && (forall s :: s in r.value.slots <==> s in st.slots && s.id != slotId)
      && (forall b :: b in r.value.bookings <==> b in st.bookings && b.slot != slotId)
      && (forall e :: e in r.value.waitlist <==> e in st.waitlist && e.slot != slotId)
      && r.value.nextId == st.nextId && r.value.clock == st.clock
  {
    if OwnsSlot(st, slotId, recruiter) then
      Ok(Store(
        Filter(st.slots, SlotOtherThan(slotId)),
        Filter(st.bookings, BookingOutside(slotId)),
        Filter(st.waitlist, EntryOutside(slotId)),
        st.nextId,
        st.clock))
    else
      Err(Unauthorized)
  }

  /** After a delete nothing refers to the slot any more. */
  lemma DeleteSlotLeavesNoTrace(st: Store, slotId: Id, recruiter: Id)
    requires DeleteSlot(st, slotId, recruiter).Ok?
    ensures !HasSlot(DeleteSlot(st, slotId, recruiter).value, slotId)
    ensures forall b :: b in DeleteSlot(st, slotId, recruiter).value.bookings ==> b.slot != slotId
    ensures forall e :: e in DeleteSlot(st, slotId, recruiter).value.waitlist ==> e.slot != slotId
  {
    var st' := DeleteSlot(st, slotId, recruiter).value;
    forall i | 0 <= i < |st'.slots| ensures st'.slots[i].id != slotId {
      assert st'.slots[i] in st'.slots;
    }
  }

  /** The slots that remain keep their ranges, and their seats still cover their confirmed bookings. */
  lemma DeleteSlotKeepsSeats(st: Store, slotId: Id, recruiter: Id)
    requires ProperRanges(st) && SeatsWithinCapacity(st) && SeatsCoverConfirmed(st)
    requires DeleteSlot(st, slotId, recruiter).Ok?
    ensures ProperRanges(DeleteSlot(st, slotId, recruiter).value)
    ensures SeatsWithinCapacity(DeleteSlot(st, slotId, recruiter).value)
    ensures SeatsCoverConfirmed(DeleteSlot(st, slotId, recruiter).value)
  {
    var st' := DeleteSlot(st, slotId, recruiter).value;
    forall i | 0 <= i < |st'.slots|
      ensures st'.slots[i].start < st'.slots[i].end
      ensures 0 <= st'.slots[i].booked <= st'.slots[i].capacity
      ensures Count(st'.bookings, ConfirmedAt(st'.slots[i].id)) <= st'.slots[i].booked
    {
      var s := st'.slots[i];
      assert s in st.slots && s.id != slotId;
      var j :| 0 <= j < |st.slots| && st.slots[j] == s;
      FilterNarrow(st.bookings, BookingOutside(slotId), ConfirmedAt(s.id));
    }
  }

  lemma DeleteSlotPreservesValid(st: Store, slotId: Id, recruiter: Id)
    requires Valid(st)
    ensures DeleteSlot(st, slotId, recruiter).Ok? ==> Valid(DeleteSlot(st, slotId, recruiter).value)
  {
    var r := DeleteSlot(st, slotId, recruiter);
    if r.Ok? {
      var st' := r.value;
      assert UniqueSlotIds(st') && NoOverlap(st') by {
        FilterPairwise(st.slots, SlotOtherThan(slotId), DistinctSlotIds);
        FilterPairwise(st.slots, SlotOtherThan(slotId), Disjoint);
      }
      assert OneEntryPerPair(st') && UniqueEntryIds(st') && FifoOrder(st') by {
        FilterPairwise(st.waitlist, EntryOutside(slotId), DistinctPairs);
        FilterPairwise(st.waitlist, EntryOutside(slotId), DistinctEntryIds);
        FilterPairwise(st.waitlist, EntryOutside(slotId), CreatedBefore);
      }
      assert UniqueBookingIds(st') && UniqueKeys(st') by {
        FilterPairwise(st.bookings, BookingOutside(slotId), DistinctBookingIds);
        FilterPairwise(st.bookings, BookingOutside(slotId), DistinctKeys);
      }
      DeleteSlotKeepsSeats(st, slotId, recruiter);
      assert NoDangling(st') && FreshCounters(st') by {
        forall id | HasSlot(st, id) && id != slotId ensures HasSlot(st', id) {
          var j :| 0 <= j < |st.slots| && st.slots[j].id == id;
          assert st.slots[j] in st'.slots;
          var k :| 0 <= k < |st'.slots| && st'.slots[k] == st.slots[j];
        }
      }
    }
  }
}

=== FILE: waitlist.dfy ===
/**
  The waitlist service: joining a slot's waitlist, listing a slot's queue
  and a candidate's entries, and promoting the oldest entry of a slot into a
  confirmed booking.
 */
module WaitlistService {
  import opened SeqUtil
  import opened Schema

  /** `joinWaitlistService`: three rejections, then one insertion stamped with the clock. */
  function JoinWaitlist(st: Store, slotId: Id, candidate: Id): (r: Result<(Store, Entry)>)
    ensures !HasSlot(st, slotId) ==> r == Err(SlotNotFound)
    ensures HasSlot(st, slotId) && (exists b :: b in st.bookings && b.slot == slotId && b.candidate == candidate)
      ==> r == Err(AlreadyBooked)
    ensures r == Err(AlreadyInWaitlist) <==>
      && HasSlot(st, slotId)
      && (forall b :: b in st.bookings ==> b.slot != slotId || b.candidate != candidate)
      && (exists e :: e in st.waitlist && e.slot == slotId && e.candidate == candidate)
    ensures r.Ok? ==>
      && r.value.0.waitlist == st.waitlist + [r.value.1]
      && r.value.0.slots == st.slots
      && r.value.0.bookings == st.bookings
      && r.value.1.slot == slotId && r.value.1.candidate == candidate
      && (FreshCounters(st) ==>
            forall e :: e in st.waitlist ==> e.id != r.value.1.id && e.created < r.value.1.created)
  {
    if FindSlot(st, slotId).None? then Err(SlotNotFound)
    else if IndexOf(st.bookings, HeldBy(slotId, candidate)).Some? then Err(AlreadyBooked)
    else if IndexOf(st.waitlist, EntryFor(slotId, candidate)).Some? then Err(AlreadyInWaitlist)
    else
      var e := Entry(st.nextId, slotId, candidate, st.clock);
      Ok((st.(waitlist := st.waitlist + [e], nextId := st.nextId + 1, clock := st.clock + 1), e))
  }

  /**
    A join succeeds exactly when the slot exists, the candidate holds no
    booking of any status on it and is not queued for it yet; the slot's
    seat count plays no part, so a slot with free seats can be joined too.
   */
  lemma JoinAcceptsIff(st: Store, slotId: Id, candidate: Id)
    ensures JoinWaitlist(st, slotId, candidate).Ok? <==>
      && HasSlot(st, slotId)
      && (forall b :: b in st.bookings ==> b.slot != slotId || b.candidate != candidate)
      && (forall e :: e in st.waitlist ==> e.slot != slotId || e.candidate != candidate)
  {
  }

  lemma JoinPreservesValid(st: Store, slotId: Id, candidate: Id)
    requires Valid(st)
    ensures JoinWaitlist(st, slotId, candidate).Ok? ==> Valid(JoinWaitlist(st, slotId, candidate).value.0)
  {
    var r := JoinWaitlist(st, slotId, candidate);
    if r.Ok? {
      var e := r.value.1;
      forall y | y in st.waitlist
        ensures DistinctPairs(y, e) && DistinctEntryIds(y, e) && CreatedBefore(y, e)
      {
        var i :| 0 <= i < |st.waitlist| && st.waitlist[i] == y;
        assert !EntryFor(slotId, candidate)(st.waitlist[i]);
      }
      PairwiseAppend(st.waitlist, e, DistinctPairs);
      PairwiseAppend(st.waitlist, e, DistinctEntryIds);
      PairwiseAppend(st.waitlist, e, CreatedBefore);
      var st' := r.value.0;
      assert st'.slots == st.slots && st'.bookings == st.bookings;
      assert UniqueSlotIds(st') && NoOverlap(st') && ProperRanges(st');
      assert SeatsWithinCapacity(st') && SeatsCoverConfirmed(st');
      assert OneEntryPerPair(st') && UniqueEntryIds(st') && FifoOrder(st');
      AppendEntryKeepsRefs(st, e);
    }
  }

  function EntryCreated(e: Entry): int { e.created }

  /** `getWaitlistBySlotService` without the user columns: the slot's queue, oldest first. */
  function GetWaitlistBySlot(st: Store, slotId: Id): (r: seq<Entry>)
    ensures SortedBy(r, EntryCreated)
    ensures multiset(r) == multiset(Filter(st.waitlist, EntryAt(slotId)))
    ensures forall e :: e in r <==> e in st.waitlist && e.slot == slotId
  {
    var mine := Filter(st.waitlist, EntryAt(slotId));
    var r := SortBy(mine, EntryCreated);
    assert forall e :: e in r <==> e in mine by {
      forall e ensures e in r <==> e in mine {
        assert e in r <==> e in multiset(r);
        assert e in mine <==> e in multiset(mine);
      }
    }
    assert forall e :: e in st.waitlist && e.slot == slotId ==> e in mine by {
      forall e | e in st.waitlist && e.slot == slotId ensures e in mine {
        var i :| 0 <= i < |st.waitlist| && st.waitlist[i] == e;
      }
    }
    r
  }

  /** Since creation ticks grow with insertion, the slot's queue is its entries in table order. */
  lemma WaitlistBySlotIsInsertionOrder(st: Store, slotId: Id)
    requires FifoOrder(st)
    ensures GetWaitlistBySlot(st, slotId) == Filter(st.waitlist, EntryAt(slotId))
  {
    var mine := Filter(st.waitlist, EntryAt(slotId));
    FilterPairwise(st.waitlist, EntryAt(slotId), CreatedBefore);
    assert SortedBy(mine, EntryCreated) by {
      forall i, j | 0 <= i < j < |mine| ensures EntryCreated(mine[i]) <= EntryCreated(mine[j]) {
        assert CreatedBefore(mine[i], mine[j]);
      }
    }
    SortByKeepsSorted(mine, EntryCreated);
  }

  /** `ORDER BY created_at ASC LIMIT 1`: the entry promotion takes. */
  function Oldest(st: Store, slotId: Id): (r: Option<Entry>)
    ensures r.None? <==> forall e :: e in st.waitlist ==> e.slot != slotId
    ensures r.Some? ==> r.value in st.waitlist && r.value.slot == slotId
    ensures r.Some? ==> forall e :: e in st.waitlist && e.slot == slotId ==> r.value.created <= e.created
  {
    var queue := GetWaitlistBySlot(st, slotId);
    if |queue| == 0 then None
    else
      SortedHeadIsLeast(queue, Filter(st.waitlist, EntryAt(slotId)), EntryCreated);
      Some(queue[0])
  }

  /** Under the invariant the oldest entry is the slot's first entry in table order. */
  lemma OldestIsFirstInserted(st: Store, slotId: Id)
    requires FifoOrder(st)
    requires Oldest(st, slotId).Some?
    ensures exists k :: (0 <= k < |st.waitlist| && st.waitlist[k] == Oldest(st, slotId).value
      && forall j :: 0 <= j < k ==> st.waitlist[j].slot != slotId)
  {
    WaitlistBySlotIsInsertionOrder(st, slotId);
    FilterHeadIsFirst(st.waitlist, EntryAt(slotId));
    var k := IndexOf(st.waitlist, EntryAt(slotId)).value;
    assert forall j :: 0 <= j < k ==> !EntryAt(slotId)(st.waitlist[j]);
  }

  /**
    `promoteFromWaitlistService`, and the same steps inline in
    `cancelBookingService`: take the oldest entry of the slot, insert a
    confirmed booking for its candidate, delete the entry by id and add one
    to booked_count. There is no capacity check. The inserted booking is
    returned.
   */
  function Promote(st: Store, slotId: Id): (r: (Store, Option<Booking>))
    ensures Oldest(st, slotId).None? ==> r == (st, None)
    ensures Oldest(st, slotId).Some? ==>
      var head := Oldest(st, slotId).value;
      && r.1.Some?
      && r.1.value.slot == slotId && r.1.value.candidate == head.candidate
      && r.1.value.status == Confirmed
      && r.1.value.key.None?
      && (FreshCounters(st) ==> forall b :: b in st.bookings ==> b.id != r.1.value.id)
      && r.0.bookings == st.bookings + [r.1.value]
      && SeatsShifted(st.slots, r.0.slots, slotId, 1)
      && (forall e :: e in r.0.waitlist <==> e in st.waitlist && e.id != head.id)
      && r.0.clock == st.clock
  {
    match Oldest(st, slotId)
    case None => (st, None)
    case Some(head) =>
      var b := Booking(st.nextId, slotId, head.candidate, Confirmed, None);
      var rest := Filter(st.waitlist, EntryOtherThan(head.id));
      assert forall e :: e in st.waitlist && e.id != head.id ==> e in rest by {
        forall e | e in st.waitlist && e.id != head.id ensures e in rest {
          var i :| 0 <= i < |st.waitlist| && st.waitlist[i] == e;
        }
      }
      (st.(slots := AdjustBooked(st.slots, slotId, 1),
           bookings := st.bookings + [b],
           waitlist := rest,
           nextId := st.nextId + 1),
       Some(b))
  }

  /** Promotion removes exactly the promoted entry and keeps the rest of the queue in order. */
  lemma PromoteRemovesOnlyHead(st: Store, slotId: Id)
    requires UniqueEntryIds(st)
    requires Oldest(st, slotId).Some?
    ensures exists k :: (0 <= k < |st.waitlist|
      && st.waitlist[k] == Oldest(st, slotId).value
      && Promote(st, slotId).0.waitlist == st.waitlist[..k] + st.waitlist[k + 1..])
  {
    var head := Oldest(st, slotId).value;
    var k :| 0 <= k < |st.waitlist| && st.waitlist[k] == head;
    forall i | 0 <= i < |st.waitlist| && i != k ensures EntryOtherThan(head.id)(st.waitlist[i]) {
      if i < k {
        assert DistinctEntryIds(st.waitlist[i], st.waitlist[k]);
      } else {
        assert DistinctEntryIds(st.waitlist[k], st.waitlist[i]);
      }
    }
    FilterDropsOne(st.waitlist, EntryOtherThan(head.id), k);
  }

  /** Room for one more seat on every row of the slot. */
  ghost predicate HasRoom(st: Store, slotId: Id)
  {
    forall i :: 0 <= i < |st.slots| && st.slots[i].id == slotId ==> st.slots[i].booked < st.slots[i].capacity
  }

  /**
    Promotion keeps every invariant, provided the slot had a free seat
    whenever someone is waiting: promotion itself never looks at capacity.
   */
  lemma PromotePreservesValid(st: Store, slotId: Id)
    requires Valid(st)
    requires Oldest(st, slotId).Some? ==> HasRoom(st, slotId)
    ensures Valid(Promote(st, slotId).0)
  {
    if Oldest(st, slotId).Some? {
      var head := Oldest(st, slotId).value;
      var st' := Promote(st, slotId).0;
      var b := Promote(st, slotId).1.value;
      assert HasSlot(st, slotId);
      assert UniqueSlotIds(st') && NoOverlap(st') && ProperRanges(st') by {
        ShiftKeepsShape(st, st', slotId, 1);
      }
      assert OneEntryPerPair(st') && UniqueEntryIds(st') && FifoOrder(st') by {
        FilterPairwise(st.waitlist, EntryOtherThan(head.id), DistinctPairs);
        FilterPairwise(st.waitlist, EntryOtherThan(head.id), DistinctEntryIds);
        FilterPairwise(st.waitlist, EntryOtherThan(head.id), CreatedBefore);
      }
      AppendBookingKeepsCover(st, st', b);
      AppendBookingKeepsRefs(st, st', b);
      assert UniqueBookingIds(st') && UniqueKeys(st') by {
        AppendBookingKeepsKeys(st.bookings, b);
      }
      assert SeatsWithinCapacity(st') by {
        forall j | 0 <= j < |st'.slots| ensures 0 <= st'.slots[j].booked <= st'.slots[j].capacity {
          assert st'.slots[j] == st.slots[j].(booked := st.slots[j].booked + (if st.slots[j].id == slotId then 1 else 0));
        }
      }
    }
  }

  /** Without a free seat, promotion pushes booked_count past capacity. */
  lemma PromoteCanOverfill()
    ensures var st := Store([Slot(0, 1, "role", 600, 660, 1, 1)], [], [Entry(1, 0, 2, 0)], 2, 1);
      && Valid(st)
      && Promote(st, 0).0.slots[0].booked == 2
      && Promote(st, 0).0.slots[0].capacity == 1
  {
    var st := Store([Slot(0, 1, "role", 600, 660, 1, 1)], [], [Entry(1, 0, 2, 0)], 2, 1);
    assert st.slots[0].id == 0;
    assert st.waitlist[0] in st.waitlist;
    assert Oldest(st, 0).Some?;
  }

  /** A row of `getMyWaitlistService`: the entry joined with its slot. */
  datatype MyEntryRow = MyEntryRow(
    id: Id,
    created: nat,
    slot: Id,
    role: string,
    start: int,
    end: int,
    interviewer: Id)

  function MyRowStart(row: MyEntryRow): int { row.start }

  function MyRowOf(e: Entry, s: Slot): MyEntryRow
  {
    MyEntryRow(e.id, e.created, s.id, s.role, s.start, s.end, s.interviewer)
  }

  /** The inner join keeps only entries whose slot exists. */
  function QueuedWithSlot(st: Store, candidate: Id): Entry -> bool
  {
    (e: Entry) => e.candidate == candidate && HasSlot(st, e.slot)
  }

  /** The join of the candidate's entries with their slots, in table order. */
  function MyRows(st: Store, candidate: Id): (rows: seq<MyEntryRow>)
    ensures |rows| == Count(st.waitlist, QueuedWithSlot(st, candidate))
  {
    var mine := Filter(st.waitlist, QueuedWithSlot(st, candidate));
    seq(|mine|, i requires 0 <= i < |mine| => MyRowOf(mine[i], SlotOf(st, mine[i].slot)))
  }

  /** The join holds one row for each of the candidate's entries whose slot exists, and nothing else. */
  lemma MyRowsContents(st: Store, candidate: Id)
    ensures forall e :: e in st.waitlist && e.candidate == candidate && HasSlot(st, e.slot) ==>
      MyRowOf(e, SlotOf(st, e.slot)) in MyRows(st, candidate)
    ensures forall row :: row in MyRows(st, candidate) ==> exists e :: (e in st.waitlist && e.candidate == candidate
      && HasSlot(st, e.slot) && row == MyRowOf(e, SlotOf(st, e.slot)))
  {
    var mine := Filter(st.waitlist, QueuedWithSlot(st, candidate));
    var rows := MyRows(st, candidate);
    forall e | e in st.waitlist && e.candidate == candidate && HasSlot(st, e.slot)
      ensures MyRowOf(e, SlotOf(st, e.slot)) in rows
    {
      var i :| 0 <= i < |st.waitlist| && st.waitlist[i] == e;
      assert e in mine;
      var j :| 0 <= j < |mine| && mine[j] == e;
      assert rows[j] == MyRowOf(e, SlotOf(st, e.slot));
    }
    forall row | row in rows ensures exists e :: (e in st.waitlist && e.candidate == candidate
      && HasSlot(st, e.slot) && row == MyRowOf(e, SlotOf(st, e.slot)))
    {
      var j :| 0 <= j < |rows| && rows[j] == row;
      assert QueuedWithSlot(st, candidate)(mine[j]);
    }
  }

  /** `getMyWaitlistService`: the candidate's entries joined with their slots, by slot start. */
  function GetMyWaitlist(st: Store, candidate: Id): (r: seq<MyEntryRow>)
    ensures SortedBy(r, MyRowStart)
    ensures |r| == Count(st.waitlist, QueuedWithSlot(st, candidate))
    ensures forall e :: e in st.waitlist && e.candidate == candidate && HasSlot(st, e.slot) ==>
      MyRowOf(e, SlotOf(st, e.slot)) in r
    ensures forall row :: row in r ==> exists e :: (e in st.waitlist && e.candidate == candidate
      && HasSlot(st, e.slot) && row == MyRowOf(e, SlotOf(st, e.slot)))
  {
    MyRowsContents(st, candidate);
    SortByMembers(MyRows(st, candidate), MyRowStart);
    SortBy(MyRows(st, candidate), MyRowStart)
  }
}
